=== FILE: README.md ===
# Paging memory core: physical frames and the TLB cache

A Dafny model of the memory core of a simulated paging operating system. It has
three parts:

- **Physical memory device** (`src/mm-memphy.c`, module `MemPhy`, file
  `memphy.dfy`). This is a byte store with a random-access flag (`rdmflg`) and a
  cursor. It keeps a free-frame list used as a LIFO stack and a used-frame list
  of `(fpn, owner)` nodes used as a FIFO queue. Both linked lists are sequences
  whose index 0 is the list head.
- **TLB cache** (`src/cpu-tlbcache.c`, module `TlbCache`, file `tlbcache.dfy`).
  This is a fixed-capacity table of `{valid, pid, page_number, frame_number,
  last_used}` slots with least-recently-used replacement. The process-wide
  logical clock `global_timer` is shared by every cache, so it is threaded
  through the operations as a separate integer.
- **CPU TLB operations** (`src/cpu-tlb.c`, module `CpuTlb`, file `cputlb.dfy`).
  These are the flush of a process's frames and the allocate, free, read and
  write requests, with their effects on the TLB.

`common.dfy` (module `Common`) holds the nullable-handle `Option`, the status
codes 0 and -1, C's truncating division and the reduction of an `int` into the
8-bit `BYTE`. The sources do not say whether `BYTE` is signed, so every
operation where it matters takes a `signedByte` flag.

Every operation is a pure function. It takes the state the C code mutates and
returns the new state with the C return value. The one loop kept close to its C
form, the victim scan of `tlb_cache_write`, is also given as a method,
`TlbCache.ChooseSlot`, proved to pick the slot that `FindInvalid` and `LruSlot`
define. Out-parameters are passed in and
returned, so that "left untouched" can be stated. The C `NULL` is `None`.

Behaviour of the code that a reader might not expect, and that the model keeps:

- `MEMPHY_seq_read` and `MEMPHY_seq_write` refuse devices whose `rdmflg` is
  clear. So a sequential device refuses every access, and a random-access
  device that calls the sequential variants gets `storage[addr]`, not the cell
  under the cursor.
- `tlb_flush_tlb_of` moves at most one frame per call, not every frame of the
  process (see Findings).
- `init_memphy` does not zero the storage. Its contents are a parameter.
- The cache write returns 0 both for a hit and for an insertion into a free
  slot, and -1 only for an eviction.

## Model

| member | source | states |
|---|---|---|
| `Common.CDiv` | src/mm-memphy.c:114-118 | C's `maxsz / pagesz` truncates toward zero. It is at least 1 exactly when `maxsz >= pagesz`. For a non-negative dividend it is the floor quotient. For a negative one it is the ceiling: `q*b - b < a <= q*b` with `q <= 0`. |
| `Common.ToByte` | src/cpu-tlb.c:172-177 | Storing an `int` into a `BYTE` gives a value in the byte's range that agrees with it modulo 256. A value already in range is kept. |
| `MemPhy.CursorWalkCloses` | src/mm-memphy.c:16-23 | The one-step-at-a-time cursor loop, started in step with its counter, ends at `min(offset, maxsz) % maxsz` (at the counter itself if the offset is already reached). |
| `MemPhy.CursorWalk` | src/mm-memphy.c:19-23 | The stepping loop itself: it takes no step when the count has reached the offset or the capacity, and the cursor stays below the capacity once it has stepped or started inside the device. |
| `MemPhy.MvCsr` | src/mm-memphy.c:14-26 | Moving the cursor leaves it at `min(offset, maxsz) % maxsz`, or 0 when the offset or capacity is not positive. Nothing else changes and the result is always 0. |
| `MemPhy.SeqRead` | src/mm-memphy.c:34-46 | NULL gives -1. A device with `rdmflg` clear gives -1 with device and value untouched. A random-access device moves the cursor and returns `storage[addr]`. |
| `MemPhy.Read` | src/mm-memphy.c:54-65 | A read succeeds exactly on a random-access device and then yields `storage[addr]`. Otherwise it is -1 with the value untouched. The device never changes. |
| `MemPhy.SeqWrite` | src/mm-memphy.c:73-86 | Same guard as the sequential read. On a random-access device it moves the cursor and stores at `storage[addr]`. |
| `MemPhy.Write` | src/mm-memphy.c:94-105 | A write succeeds exactly on a random-access device. It then changes only `storage[addr]`, to the new byte. Otherwise it is -1 with no change. |
| `MemPhy.WriteThenRead` | src/mm-memphy.c:54-105 | On a random-access device, reading after a write yields the written byte at that address and the old byte everywhere else. |
| `MemPhy.SequentialDeviceRefusesAccess` | src/mm-memphy.c:34-105 | On a sequential device, reads and writes at every address return -1 and change neither the device, its cursor nor the out-value. |
| `MemPhy.SeqAccessOnRandomDevice` | src/mm-memphy.c:34-86 | The sequential variants on a random-access device put the cursor at `addr` but access `storage[addr]`. |
| `MemPhy.Format` | src/mm-memphy.c:111-137 | Formatting fails, with no change, exactly when there is no whole frame. Otherwise the free list becomes exactly `0, 1, ..., numfp-1` ascending and nothing else changes. |
| `MemPhy.GetFreeFp` | src/mm-memphy.c:139-155 | Taking a free frame fails, with no change, exactly on an empty list. Otherwise the returned frame followed by the new list is the old list. |
| `MemPhy.PutFreeFp` | src/mm-memphy.c:170-181 | Releasing a frame puts it at the head of the free list, above the old list, and returns 0. |
| `MemPhy.FreeListRoundTrip` | src/mm-memphy.c:139-181 | LIFO: a released frame is the next one taken, and taking it restores the device exactly. |
| `MemPhy.IndexOfFpn` | src/mm-memphy.c:186-200 | The scan finds the first node carrying the frame, or reports that none does. |
| `MemPhy.RemoveUsedFp` | src/mm-memphy.c:183-203 | Unclaiming succeeds exactly when some node carries the frame. It then removes the first such node and keeps the rest in order. Otherwise it returns -1 with no change, which includes the empty list. |
| `MemPhy.PutUsedFp` | src/mm-memphy.c:205-225 | Claiming appends `(fpn, owner)` after the unchanged old list. |
| `MemPhy.GetUsedFp` | src/mm-memphy.c:227-239 | The pop gives NULL exactly on an empty list. Otherwise the returned node followed by the new list is the old list. |
| `MemPhy.UsedListFifo` | src/mm-memphy.c:205-239 | FIFO: after an append, the pop yields the old head, or the new node if the list was empty. The appended node stays last. |
| `MemPhy.InitMemPhy` | src/mm-memphy.c:244-257 | After initialisation the storage has the given size and contents, the used list is empty and `rdmflg` is `randomflg != 0`. A sequential device's cursor is 0. The free list is `0 .. maxsz/pagesz - 1` when the device holds a frame, and is untouched otherwise. |
| `MemPhy.InitPartitioned` | src/mm-memphy.c:244-257 | A freshly initialised device has every frame in exactly one list: all of them are free. |
| `MemPhy.AcquireClaimPartitioned` | src/mm-memphy.c:139-225 | Taking a free frame and claiming it keeps every frame in exactly one of the two lists. |
| `MemPhy.UnclaimReleasePartitioned` | src/mm-memphy.c:170-203 | Unclaiming a used frame and releasing it keeps every frame in exactly one of the two lists. |
| `MemPhy.FourFrameScenario` | src/mm-memphy.c:139-181 | A four-frame device hands out 0, 1, 2, 3 and is then empty. After frame 1 is released, it is handed out next. |
| `TlbCache.InitTlb` | src/cpu-tlbcache.c:156-172 | A fresh table has `maxSize / sizeof(TLBEntry)` slots. Each is invalid, with pid, page and frame -1 and timestamp 0, so no key is cached. |
| `TlbCache.InitTlbInv` | src/cpu-tlbcache.c:156-172 | A fresh table satisfies the cache invariant for any non-negative clock, and every lookup in it misses and changes nothing. |
| `TlbCache.FindHit` | src/cpu-tlbcache.c:52-58 | The lookup scan finds the lowest-index valid slot matching (pid, page), or reports that none matches. |
| `TlbCache.FindInvalid` | src/cpu-tlbcache.c:80-84 | The empty-slot scan finds the lowest-index invalid slot, or reports that all slots are valid. |
| `TlbCache.MinFrom` | src/cpu-tlbcache.c:85-88 | The strict `<` minimum scan ends on the first slot with the least `last_used`. |
| `TlbCache.LruSlot` | src/cpu-tlbcache.c:85-92 | The replacement victim has the least `last_used`, and every slot before it has a strictly larger one. |
| `TlbCache.LruAtUnique` | src/cpu-tlbcache.c:85-88 | Ties are settled deterministically: only one slot is the first minimum. |
| `TlbCache.ChooseSlot` | src/cpu-tlbcache.c:76-93 | The C loop, with its INT_MAX sentinel and early return, picks the first invalid slot if there is one. Otherwise it picks the least recently used slot, lowest index first. This agrees with `FindInvalid` and `LruSlot`. |
| `TlbCache.CacheRead` | src/cpu-tlbcache.c:44-60 | A lookup hits exactly when a valid slot matches. On a hit it yields the frame of the lowest matching slot and stamps that slot with `global_timer + 1`. The clock then advances by one and no other slot changes. A miss returns -1 and changes nothing. |
| `TlbCache.ReadHitStaysCached` | src/cpu-tlbcache.c:52-56 | A hit leaves the key cached. |
| `TlbCache.ReadThenWriteHit` | src/cpu-tlb.c:107-109 | A lookup hit followed at once by a write of the same key restamps only the first matching slot, to two ticks after the starting clock; the written frame never lands. |
| `TlbCache.CacheWrite` | src/cpu-tlbcache.c:69-94 | A write always advances the clock by one and leaves the key cached. If the key was cached, it returns 0 and only refreshes the timestamp; the frame is not replaced. Otherwise it fills the lowest invalid slot and returns 0. On a full table it overwrites the first least-recently-used slot and returns -1. |
| `TlbCache.ReadKeepsInv` | src/cpu-tlbcache.c:52-59 | A lookup keeps at most one valid slot per key and no timestamp ahead of the clock. The clock never goes back. |
| `TlbCache.WriteKeepsInv` | src/cpu-tlbcache.c:79-93 | A write keeps the invariant and advances the clock. The written key's slot carries the clock as timestamp, strictly larger than every other slot's. |
| `TlbCache.WriteCachedKeepsFrames` | src/cpu-tlbcache.c:79 | Writing an already cached key returns 0 and changes nothing but timestamps. |
| `TlbCache.WriteTwice` | src/cpu-tlbcache.c:79-84 | Idempotence: a second write of the same key returns 0 and keeps the frame the first write left. |
| `TlbCache.EvictThenRewrite` | src/cpu-tlb.c:177-195 | A write that evicted, repeated at once with the same key, hits the slot it just filled. The retry returns 0 and only restamps that slot. |
| `TlbCache.FillInOrder` | src/cpu-tlbcache.c:80-84 | Writing up to `n` distinct keys into a fresh `n`-slot table fills slots 0, 1, ... in order, with increasing timestamps. |
| `TlbCache.LruEvictsFirstInserted` | src/cpu-tlbcache.c:80-93 | After `n` distinct keys fill an `n`-slot table, writing a new key evicts slot 0 and returns -1. The first key inserted is then no longer cached and the others still are. |
| `TlbCache.TwoSlotScenario` | src/cpu-tlbcache.c:69-94 | Two slots: (1,5) and (1,6) are inserted, (1,7) evicts, then (1,5) misses and (1,6) hits with frame 10. |
| `CpuTlb.FindOwned` | src/cpu-tlb.c:39-41 | The walk finds the first used node owned by the process, or reports that there is none. |
| `CpuTlb.FlushWalk` | src/cpu-tlb.c:39-47 | The loop as written, including the path where an earlier node carries the same frame. It only pushes frames on top of the old free list, one per node removed from the used list, and every frame stays in exactly one of the two lists. |
| `CpuTlb.FlushWalkUnique` | src/cpu-tlb.c:39-47 | With no frame listed twice, the flush loop moves only the first owned node, or nothing when no node is owned. |
| `CpuTlb.FlushTlbOf` | src/cpu-tlb.c:29-50 | A NULL process or device, or an empty used list, gives -1 with no change. Otherwise it returns 0 and only the frame lists change. With distinct frames, exactly the first owned frame moves to the free-list head and the other nodes keep their order. If no node is owned, nothing changes. |
| `CpuTlb.TlbChangeAllPageTablesOf` | src/cpu-tlb.c:19-27 | Performs the flush and always returns 0. |
| `CpuTlb.FlushKeepsPartition` | src/cpu-tlb.c:36-47 | The flush keeps every frame in exactly one of the two lists. |
| `CpuTlb.FlushStopsAfterFirst` | src/cpu-tlb.c:39-47 | As written, flushing P from the used list `[(2,P),(3,Q),(4,P)]` frees frame 2 only and leaves `(4,P)` in use. |
| `CpuTlb.MoveOwned` | src/cpu-tlb.c:39-47 | The intended loop leaves exactly the non-owned nodes, in their original order (the reference filter `Kept`). The free list gains the owned frames, the last owned one on top, above the unchanged old list. Frames are conserved between the two lists. |
| `CpuTlb.KeptSpec` | src/cpu-tlb.c:39-47 | The reference filter keeps exactly the nodes not owned by the process. Its frames together with the owned frames are the frames of the list. |
| `CpuTlb.MovedSplit` | src/cpu-tlb.c:39-47 | A result in that order has no owned node left, keeps every other node, and its free list gains exactly the owned frames. |
| `CpuTlb.FlushAllOwned` | src/cpu-tlb.c:29-50 | The corrected flush makes the same argument checks. It then leaves exactly the non-owned nodes in their original order and pushes every owned frame on the free list in walk order, so the last one ends on top. Nothing else changes. |
| `CpuTlb.FlushAllOwnedKeepsPartition` | src/cpu-tlb.c:29-50 | The corrected flush keeps every frame in exactly one of the two lists. |
| `CpuTlb.FlushAllOwnedScenario` | src/cpu-tlb.c:39-47 | The corrected flush of P on `[(2,P),(3,Q),(4,P)]` leaves `[(3,Q)]` and pushes frames 2 then 4. |
| `CpuTlb.TlbAlloc` | src/cpu-tlb.c:57-86 | Returns the allocator's result. On failure nothing changes. On success it makes one cache write of placeholder frame 1: a cached region only has its first matching slot restamped. Otherwise the first invalid slot, or on a full table the least recently used slot, gets the placeholder and every other slot is unchanged. |
| `CpuTlb.TlbFreeData` | src/cpu-tlb.c:93-116 | Returns 0 exactly when the region is cached, and -1 with no change otherwise. On a hit the freed marker does not land: exactly the first matching slot changes, and only its timestamp, which becomes `timer + 2`; the clock advances by two. |
| `CpuTlb.TlbRead` | src/cpu-tlb.c:125-160 | Returns the read primitive's result whatever the cache holds. A hit only restamps the first matching slot. A miss inserts nothing with an unsigned BYTE. With a signed BYTE a miss puts the destination index, stored into a BYTE, into the first invalid slot or else the least recently used one, and leaves the other slots unchanged. The offset flush runs exactly when the table was full. |
| `CpuTlb.TlbWrite` | src/cpu-tlb.c:168-201 | Returns the write primitive's result and leaves the key cached. A hit only restamps the first matching slot and keeps its frame. A miss stores `data` in the first invalid slot or else the least recently used one, and leaves the other slots unchanged. The offset flush at line 193 is never reached, whatever the signedness of BYTE. |
| `CpuTlb.AllocKeepsInv` | src/cpu-tlb.c:57-86 | An allocation keeps at most one valid slot per key and no timestamp ahead of the clock, and never moves the clock back. |
| `CpuTlb.FreeDataKeepsInv` | src/cpu-tlb.c:93-116 | A free keeps the cache invariant and never moves the clock back. |
| `CpuTlb.ReadRequestKeepsInv` | src/cpu-tlb.c:125-160 | A read request keeps the cache invariant, including the insertion made on a signed-BYTE miss, and never moves the clock back. This takes the offset flush after an eviction to leave the table and the clock untouched. |
| `CpuTlb.WriteRequestKeepsInv` | src/cpu-tlb.c:168-201 | A write request, retry included, keeps the cache invariant and never moves the clock back. |

## Findings

| source | as written | input that shows it | evidently intended | confidence | as-written member | corrected member |
|---|---|---|---|---|---|---|
| src/cpu-tlb.c:39-47 | After moving a frame, the loop follows the link of the node just removed. `MEMPHY_remove_usedfp` has set that link to NULL, so the walk stops after the first owned frame. | Used list `[(2,P),(3,Q),(4,P)]`, flush P: only frame 2 is freed and `(4,P)` stays in use. | Every frame owned by the process goes back to the free list. | high; not executed | `CpuTlb.FlushStopsAfterFirst` | `CpuTlb.FlushAllOwned` |

The orchestration entry point `TlbChangeAllPageTablesOf` keeps calling the
as-written `FlushTlbOf`, because that is the call the code makes. The corrected
flush and its properties are stated alongside it.

## Left out

- `__alloc`, `__free`, `__read`, `__write` and `print_pgtbl` are not part of this model. Their results are parameters of the request functions, and they are taken not to touch the TLB. `__free`'s result is discarded by the code and does not appear.
- `tlb_flush_tlb_offset` is not part of this model. The request outcome records only whether it was called, and the table and clock are kept as the cache write left them, as if the call changed neither.
- `CpuTlb.ReadRequestKeepsInv`: the invariant after a full-table signed-BYTE miss is proved only for that no-op reading of `tlb_flush_tlb_offset`. What the real call does to the table is not modelled.
- `MEMPHY_dump`, `TLBMEMPHY_dump`, all `printf` output and the `IODUMP` / `PAGETBL_DUMP` blocks are diagnostics with no effect on state.
- `malloc` / `free`, the leaked nodes, and the uninitialised link of the last free node when there is a single frame are not modelled, because lists are sequences.
- `TLBMEMPHY_read`, `TLBMEMPHY_write`, the `init_tlbcache` macro and the reinterpretation of the TLB's byte storage as `TLBEntry` slots are not modelled. The table is a typed sequence of `maxSize / 20` slots, taking `sizeof(TLBEntry)` as 20 bytes.
- The out-argument at src/cpu-tlbcache.c:79 is not modelled. There the uninitialised `BYTE data` is passed where `tlb_cache_read` expects a `BYTE *`, so on a hit the store at line 54 writes through an invalid address, which is undefined behaviour in C. The model discards the lookup's output and keeps only its status and timestamp effect.
- `TlbCache.CacheRead`: returns the cached `frame_number` as an `int`. The C code stores it into a `BYTE`, which may truncate, but no caller uses the value.
- `TlbCache.CacheWrite`: the clock and timestamps are unbounded integers. The 32-bit overflow of `global_timer` is not modelled, and neither is the `INT_MAX` sentinel of the victim scan. `ChooseSlot` shows that the sentinel is irrelevant while every timestamp is below `INT_MAX`.
- `TlbCache.ChooseSlot`: requires every timestamp to be below `INT_MAX`, that is, the clock never reached it. With all slots at `INT_MAX` the C code writes before the table.
- `TlbCache.CacheWrite`: requires a table of at least one slot. With none, the C code writes before the table.
- `CpuTlb.FlushTlbOf`: the exact frame movement is stated only for used lists that carry no frame twice, which every partitioned device satisfies. With repeated frames the model still follows the code's walk, and the contract states only the status and that nothing but the two lists changes. `FlushWalk` adds that frames are only pushed on top of the old free list and are conserved between the two lists.
- Region indexes are `uint32_t` in the request functions and `int` page numbers in the cache. The model takes the `int` value directly and does not model the conversion of indexes above `INT_MAX`.
- The frame number written by `tlbread` is the `uint32_t` destination index stored into a `BYTE`. It is modelled with `ToByte`. The `BYTE` data of `tlbwrite` is taken as already in byte range.
- `MemPhy.InitMemPhy`: takes a non-negative size. A negative `max_size` makes `malloc` fail, which is not modelled. The page size `PAGING_PAGESZ` is defined outside the modelled files and is a positive parameter.
- Concurrency is not modelled: `global_timer` is a plain global, threaded through the calls as a value.

=== FILE: common.dfy ===
/** Conventions shared by the memory modules: an optional value standing in for a
    nullable pointer, the status codes the C functions return, and the integer
    conversions the C code performs implicitly. */
module Common {

  /** A nullable handle or result: `None` plays the role of a NULL pointer. */
  datatype Option<+T> = None | Some(value: T)

  /** Status code for success. */
  const OK: int := 0

  /** Status code for failure (`-1` in the C code). */
  const FAIL: int := -1

  /** Largest value of a 32-bit C `int`. */
  const INT_MAX: int := 0x7fff_ffff

  function Min(a: int, b: int): int
  {
    if a <= b then a else b
  }

  /** C integer division `a / b` for a positive divisor: it truncates toward zero,
      unlike Dafny's Euclidean `/`. */
  function CDiv(a: int, b: int): (q: int)
    requires b > 0
    ensures q >= 1 <==> a >= b
    ensures 0 <= a ==> q * b <= a < q * b + b
    ensures a < 0 ==> q <= 0 && q * b - b < a <= q * b
  {
    if a >= 0 then a / b
    else
      var k := (-a) / b;
      assert k * b <= -a < k * b + b;
      assert (-k) * b == -(k * b);
      -k
  }

  /** True when `v` is representable in a C `BYTE` (8 bits, signed or not). */
  predicate InByteRange(v: int, signedByte: bool)
  {
    if signedByte then -128 <= v < 128 else 0 <= v < 256
  }

  /** The value an `int` takes once stored into an 8-bit `BYTE`, whose signedness
      the shown sources leave open: reduction modulo 256 into the type's range. */
  function ToByte(v: int, signedByte: bool): (b: int)
    ensures InByteRange(b, signedByte)
    ensures (v - b) % 256 == 0
    ensures InByteRange(v, signedByte) ==> b == v
  {
    if signedByte then (v + 128) % 256 - 128 else v % 256
  }
}

=== FILE: cputlb.dfy ===
/** The CPU-side TLB operations (src/cpu-tlb.c): flushing a process's frames back
    to the free list, and the allocate / free / read / write requests that call
    the virtual-memory manager and update the process's TLB cache on the side.

    The manager's primitives (`__alloc`, `__free`, `__read`, `__write`) are not
    part of this model: their return values are parameters, and they are taken
    not to touch the TLB. `tlb_flush_tlb_offset`, whose definition is not part of
    this model either, is recorded only as having been called. */
module CpuTlb {
  import opened Common
  import opened MemPhy
  import opened TlbCache

  /** The fields of a process control block (`struct pcb_t`) used here: the
      process id, its address-space descriptor and its TLB table. */
  datatype Proc = Proc(pid: int, mm: MmId, tlb: seq<Entry>)

  /** Result of a flush: the device handle afterwards and the status code. */
  datatype Flushed = Flushed(mp: Option<Device>, status: int)

  /** Result of a request: the process and the global clock afterwards, the
      request's return value, and whether `tlb_flush_tlb_offset` was called. */
  datatype Outcome = Outcome(proc: Proc, timer: int, status: int, offsetFlushed: bool)

  /** The frame number tlballoc caches for a new region: a constant placeholder,
      not the frame that actually backs the region. */
  const ALLOC_PLACEHOLDER_FRAME: int := 1

  /** The frame number tlbfree_data writes for a freed region. */
  const FREED_FRAME: int := -1

  // ---------------------------------------------------------------------------
  // Flush

  /** Node `k` is the first node of `l`, from index `from` on, owned by `owner`. */
  ghost predicate FirstOwnedFrom(l: seq<UsedFrame>, owner: MmId, from: int, k: int)
  {
    && 0 <= from <= k < |l| && l[k].owner == owner
    && forall m :: from <= m < k ==> l[m].owner != owner
  }

  /** No node of `l` from index `from` on is owned by `owner`. */
  ghost predicate NoneOwnedFrom(l: seq<UsedFrame>, owner: MmId, from: int)
  {
    forall m :: 0 <= m < |l| && from <= m ==> l[m].owner != owner
  }

  /** First node at or after `from` owned by `owner`. */
  function FindOwned(l: seq<UsedFrame>, owner: MmId, from: nat): (r: Option<nat>)
    requires from <= |l|
    ensures r.Some? ==> FirstOwnedFrom(l, owner, from, r.value)
    ensures r.None? ==> NoneOwnedFrom(l, owner, from)
    decreases |l| - from
  {
    if from == |l| then None
    else if l[from].owner == owner then Some(from)
    else FindOwned(l, owner, from + 1)
  }

  /** The loop of tlb_flush_tlb_of, with the walker at index `i` of the used list.
      For a node owned by `owner` it removes the first node carrying the same
      frame (MEMPHY_remove_usedfp, which also nulls that node's link) and pushes
      the frame on the free list. When the removed node is the walker's own, the
      walk then follows the nulled link and stops; when an earlier node with the
      same frame was removed instead, the walker keeps its link and goes on. */
  function FlushWalk(used: seq<UsedFrame>, free: seq<int>, owner: MmId, i: nat): (r: (seq<UsedFrame>, seq<int>))
    ensures |r.0| <= |used| && |r.1| == |free| + (|used| - |r.0|)
    ensures r.1[|r.1| - |free|..] == free
    ensures multiset(r.1) + multiset(Fpns(r.0)) == multiset(free) + multiset(Fpns(used))
    decreases |used| - i
  {
    if i >= |used| then (used, free)
    else if used[i].owner != owner then FlushWalk(used, free, owner, i + 1)
    else
      var f := used[i].fpn;
      var j := IndexOfFpn(used, f, 0).value;
      RemoveAtFpns(used, j);
      if j == i then (RemoveAt(used, j), [f] + free)
      else
        var w := FlushWalk(RemoveAt(used, j), [f] + free, owner, i);
        assert w.1[|w.1| - |free|..] == ([f] + free)[1..];
        w
  }

  /** With no frame twice in the used list, the walk from `i` moves only the first
      node from `i` on owned by `owner`, or nothing when there is none. */
  lemma {:induction false} FlushWalkUnique(used: seq<UsedFrame>, free: seq<int>, owner: MmId, i: nat)
    requires i <= |used| && UniqueFpns(used)
    ensures NoneOwnedFrom(used, owner, i) ==> FlushWalk(used, free, owner, i) == (used, free)
    ensures forall k :: FirstOwnedFrom(used, owner, i, k) ==>
              FlushWalk(used, free, owner, i) == (RemoveAt(used, k), [used[k].fpn] + free)
    decreases |used| - i
  {
    if i < |used| {
      if used[i].owner == owner {
        var j := IndexOfFpn(used, used[i].fpn, 0);
        assert j == Some(i);
      } else {
        FlushWalkUnique(used, free, owner, i + 1);
      }
    }
  }

  /** tlb_flush_tlb_of. A NULL process or device, or an empty used list, gives -1
      and no change. Otherwise the status is 0, only the two frame lists change,
      and, when no frame is listed twice, exactly the first frame owned by the
      process moves from the used list to the head of the free list (the others
      stay in order), or nothing moves when the process owns none. */
  function FlushTlbOf(proc: Option<Proc>, mp: Option<Device>): (r: Flushed)
    ensures proc.None? || mp.None? || mp.value.usedList == [] ==> r == Flushed(mp, FAIL)
    ensures proc.Some? && mp.Some? && mp.value.usedList != [] ==>
              && r.status == OK && r.mp.Some?
              && r.mp.value == mp.value.(usedList := r.mp.value.usedList, freeList := r.mp.value.freeList)
    ensures proc.Some? && mp.Some? && UniqueFpns(mp.value.usedList) ==>
              && (NoneOwnedFrom(mp.value.usedList, proc.value.mm, 0) ==> r.mp == mp)
              && forall k :: FirstOwnedFrom(mp.value.usedList, proc.value.mm, 0, k) ==>
                   r.mp == Some(mp.value.(usedList := RemoveAt(mp.value.usedList, k),
                                          freeList := [mp.value.usedList[k].fpn] + mp.value.freeList))
  {
    if proc.None? || mp.None? || mp.value.usedList == [] then Flushed(mp, FAIL)
    else
      var d := mp.value;
      var w := FlushWalk(d.usedList, d.freeList, proc.value.mm, 0);
      var r := Flushed(Some(d.(usedList := w.0, freeList := w.1)), OK);
      if UniqueFpns(d.usedList) then FlushWalkUnique(d.usedList, d.freeList, proc.value.mm, 0); r else r
  }

  /** tlb_change_all_page_tables_of: performs the flush and returns 0 whatever
      the flush returned. */
  function TlbChangeAllPageTablesOf(proc: Option<Proc>, mp: Option<Device>): (r: Flushed)
    ensures r.status == OK
    ensures r.mp == FlushTlbOf(proc, mp).mp
  {
    Flushed(FlushTlbOf(proc, mp).mp, OK)
  }

  /** The flush keeps every frame in exactly one of the two lists. */
  lemma FlushKeepsPartition(p: Proc, d: Device, n: nat)
    requires Partitioned(d, n)
    ensures FlushTlbOf(Some(p), Some(d)).mp.Some?
    ensures Partitioned(FlushTlbOf(Some(p), Some(d)).mp.value, n)
  {
    PartitionedExactlyOnce(d, n, 0);
    if d.usedList != [] {
      match FindOwned(d.usedList, p.mm, 0)
      case None =>
      case Some(k) => MovePartitioned(d, n, k);
    }
  }

  /** As written the flush stops after the first frame it moves: with used list
      [(2, P), (3, Q), (4, P)], flushing P frees frame 2 only and leaves (4, P) in
      the used list. */
  lemma FlushStopsAfterFirst(pid: int, tlb: seq<Entry>, d: Device)
    requires d.usedList == [UsedFrame(2, 10), UsedFrame(3, 20), UsedFrame(4, 10)]
    ensures var r := FlushTlbOf(Some(Proc(pid, 10, tlb)), Some(d));
            && r.status == OK
            && r.mp == Some(d.(usedList := [UsedFrame(3, 20), UsedFrame(4, 10)],
                               freeList := [2] + d.freeList))
  {
    var l := d.usedList;
    assert UniqueFpns(l);
    assert FirstOwnedFrom(l, 10, 0, 0);
    assert RemoveAt(l, 0) == [UsedFrame(3, 20), UsedFrame(4, 10)];
  }

  /** The nodes of `l` not owned by `owner`, in list order. */
  function Kept(l: seq<UsedFrame>, owner: MmId): seq<UsedFrame>
    decreases |l|
  {
    if l == [] then []
    else (if l[0].owner != owner then [l[0]] else []) + Kept(l[1..], owner)
  }

  /** The frames of the nodes of `l` owned by `owner`, in list order. */
  function OwnedFpns(l: seq<UsedFrame>, owner: MmId): seq<int>
    decreases |l|
  {
    if l == [] then []
    else (if l[0].owner == owner then [l[0].fpn] else []) + OwnedFpns(l[1..], owner)
  }

  function Reverse(s: seq<int>): seq<int>
    decreases |s|
  {
    if s == [] then [] else Reverse(s[1..]) + [s[0]]
  }

  /** The kept nodes are exactly the nodes of `l` not owned by `owner`. */
  lemma {:induction false} KeptOwners(l: seq<UsedFrame>, owner: MmId)
    ensures forall k :: 0 <= k < |Kept(l, owner)| ==> Kept(l, owner)[k].owner != owner
    ensures forall x :: x in Kept(l, owner) <==> x in l && x.owner != owner
    decreases |l|
  {
    if l != [] {
      KeptOwners(l[1..], owner);
      assert l == [l[0]] + l[1..];
    }
  }

  /** The frames of the kept nodes together with the owned frames are the frames
      of the list. */
  lemma {:induction false} KeptFrames(l: seq<UsedFrame>, owner: MmId)
    ensures multiset(Fpns(Kept(l, owner))) + multiset(OwnedFpns(l, owner)) == multiset(Fpns(l))
    decreases |l|
  {
    if l != [] {
      var head, tail := l[0], l[1..];
      KeptFrames(tail, owner);
      var keep := if head.owner != owner then [head] else [];
      var own := if head.owner == owner then [head.fpn] else [];
      assert l == [head] + tail;
      FpnsConcat([head], tail);
      FpnsConcat(keep, Kept(tail, owner));
      assert Fpns([head]) == [head.fpn];
      assert multiset(Fpns(keep)) + multiset(own) == multiset{head.fpn};
    }
  }

  /** The reference filter splits a used list: the kept nodes are exactly the
      nodes not owned by `owner`, and their frames together with the owned frames
      are the frames of the list. */
  lemma KeptSpec(l: seq<UsedFrame>, owner: MmId)
    ensures forall k :: 0 <= k < |Kept(l, owner)| ==> Kept(l, owner)[k].owner != owner
    ensures forall x :: x in Kept(l, owner) <==> x in l && x.owner != owner
    ensures multiset(Fpns(Kept(l, owner))) + multiset(OwnedFpns(l, owner)) == multiset(Fpns(l))
  {
    KeptOwners(l, owner);
    KeptFrames(l, owner);
  }

  /** Reversal keeps the elements. */
  lemma {:induction false} ReverseMultiset(s: seq<int>)
    ensures multiset(Reverse(s)) == multiset(s)
    decreases |s|
  {
    if s != [] {
      ReverseMultiset(s[1..]);
      assert s == [s[0]] + s[1..];
    }
  }

  /** What the order clauses of the corrected loop give: no owned node is kept,
      every other node is, and the owned frames are exactly what the free list
      gains. */
  lemma MovedSplit(used: seq<UsedFrame>, free: seq<int>, owner: MmId, r: (seq<UsedFrame>, seq<int>))
    requires r.0 == Kept(used, owner) && r.1 == Reverse(OwnedFpns(used, owner)) + free
    ensures forall k :: 0 <= k < |r.0| ==> r.0[k].owner != owner
    ensures forall x :: x in used && x.owner != owner ==> x in r.0
    ensures forall x :: x in r.0 ==> x in used
    ensures multiset(r.1) == multiset(free) + multiset(OwnedFpns(used, owner))
    ensures multiset(r.1) + multiset(Fpns(r.0)) == multiset(free) + multiset(Fpns(used))
  {
    KeptSpec(used, owner);
    ReverseMultiset(OwnedFpns(used, owner));
  }

  /** The flush as evidently intended: every node owned by `owner` leaves the used
      list, its frame pushed on the free list in walk order (so the last owned
      frame ends on top); the other nodes stay in order. */
  function MoveOwned(used: seq<UsedFrame>, free: seq<int>, owner: MmId): (r: (seq<UsedFrame>, seq<int>))
    ensures r.0 == Kept(used, owner)
    ensures r.1 == Reverse(OwnedFpns(used, owner)) + free
    ensures forall k :: 0 <= k < |r.0| ==> r.0[k].owner != owner
    ensures forall x :: x in used && x.owner != owner ==> x in r.0
    ensures forall x :: x in r.0 ==> x in used
    ensures multiset(r.1) == multiset(free) + multiset(OwnedFpns(used, owner))
    ensures multiset(r.1) + multiset(Fpns(r.0)) == multiset(free) + multiset(Fpns(used))
    decreases |used|
  {
    if used == [] then
      MovedSplit(used, free, owner, ([], free));
      ([], free)
    else
      var head := used[0];
      var o := OwnedFpns(used[1..], owner);
      if head.owner == owner then
        var rest := MoveOwned(used[1..], [head.fpn] + free, owner);
        assert OwnedFpns(used, owner) == [head.fpn] + o;
        assert ([head.fpn] + o)[1..] == o;
        assert Reverse(OwnedFpns(used, owner)) + free == Reverse(o) + ([head.fpn] + free);
        MovedSplit(used, free, owner, rest);
        rest
      else
        var rest := MoveOwned(used[1..], free, owner);
        assert OwnedFpns(used, owner) == o;
        MovedSplit(used, free, owner, ([head] + rest.0, rest.1));
        ([head] + rest.0, rest.1)
  }

  /** Corrected tlb_flush_tlb_of: the same argument checks, then every frame the
      process owns goes back to the free list. */
  function FlushAllOwned(proc: Option<Proc>, mp: Option<Device>): (r: Flushed)
    ensures proc.None? || mp.None? || mp.value.usedList == [] ==> r == Flushed(mp, FAIL)
    ensures proc.Some? && mp.Some? && mp.value.usedList != [] ==>
              && r.status == OK && r.mp.Some?
              && r.mp.value == mp.value.(usedList := r.mp.value.usedList, freeList := r.mp.value.freeList)
              && (forall k :: 0 <= k < |r.mp.value.usedList| ==> r.mp.value.usedList[k].owner != proc.value.mm)
              && (forall x :: x in mp.value.usedList && x.owner != proc.value.mm ==> x in r.mp.value.usedList)
              && r.mp.value.usedList == Kept(mp.value.usedList, proc.value.mm)
              && r.mp.value.freeList == Reverse(OwnedFpns(mp.value.usedList, proc.value.mm)) + mp.value.freeList
  {
    if proc.None? || mp.None? || mp.value.usedList == [] then Flushed(mp, FAIL)
    else
      var d := mp.value;
      var w := MoveOwned(d.usedList, d.freeList, proc.value.mm);
      Flushed(Some(d.(usedList := w.0, freeList := w.1)), OK)
  }

  /** The corrected flush keeps every frame in exactly one of the two lists. */
  lemma FlushAllOwnedKeepsPartition(p: Proc, d: Device, n: nat)
    requires Partitioned(d, n)
    ensures FlushAllOwned(Some(p), Some(d)).mp.Some?
    ensures Partitioned(FlushAllOwned(Some(p), Some(d)).mp.value, n)
  {
  }

  /** On the used list [(2, P), (3, Q), (4, P)] the corrected flush of P leaves
      only (3, Q) in use and pushes frames 2 then 4 on the free list. */
  lemma FlushAllOwnedScenario(pid: int, tlb: seq<Entry>, d: Device)
    requires d.usedList == [UsedFrame(2, 10), UsedFrame(3, 20), UsedFrame(4, 10)]
    ensures FlushAllOwned(Some(Proc(pid, 10, tlb)), Some(d))
            == Flushed(Some(d.(usedList := [UsedFrame(3, 20)], freeList := [4, 2] + d.freeList)), OK)
  {
    var l := d.usedList;
    var l1, l2 := [UsedFrame(3, 20), UsedFrame(4, 10)], [UsedFrame(4, 10)];
    assert l[1..] == l1 && l1[1..] == l2 && l2[1..] == [];
    assert Kept(l2, 10) == [];
    assert Kept(l1, 10) == [UsedFrame(3, 20)];
    assert Kept(l, 10) == [UsedFrame(3, 20)];
    assert OwnedFpns(l2, 10) == [4];
    assert OwnedFpns(l1, 10) == [4];
    assert OwnedFpns(l, 10) == [2, 4];
    assert [2, 4][1..] == [4] && [4][1..] == [];
    assert Reverse([2, 4]) == [4, 2];
  }

  // ---------------------------------------------------------------------------
  // Requests

  /** tlballoc: returns `__alloc`'s result `allocStatus`. On success it writes the
      placeholder frame for (pid, region) into the TLB, so the region is cached
      afterwards, with the placeholder when it was not cached before and with its
      old frame when it was; on failure nothing changes. */
  function TlbAlloc(p: Proc, timer: int, regIndex: int, allocStatus: int): (r: Outcome)
    requires allocStatus == 0 ==> |p.tlb| >= 1
    ensures r.status == allocStatus && !r.offsetFlushed
    ensures allocStatus != 0 ==> r.proc == p && r.timer == timer
    ensures allocStatus == 0 ==>
              && r.proc == p.(tlb := r.proc.tlb)
              && r.timer == timer + 1
              && |r.proc.tlb| == |p.tlb|
              && Cached(r.proc.tlb, p.pid, regIndex)
    ensures allocStatus == 0 && Cached(p.tlb, p.pid, regIndex) ==>
              exists i :: FirstMatch(p.tlb, p.pid, regIndex, i)
                          && r.proc.tlb == p.tlb[i := p.tlb[i].(lastUsed := timer + 1)]
    ensures allocStatus == 0 && !Cached(p.tlb, p.pid, regIndex) && !Full(p.tlb) ==>
              exists i :: FirstInvalidAt(p.tlb, i)
                          && r.proc.tlb == p.tlb[i := Entry(true, p.pid, regIndex, ALLOC_PLACEHOLDER_FRAME, timer + 1)]
    ensures allocStatus == 0 && !Cached(p.tlb, p.pid, regIndex) && Full(p.tlb) ==>
              exists i :: LruAt(p.tlb, i)
                          && r.proc.tlb == p.tlb[i := Entry(true, p.pid, regIndex, ALLOC_PLACEHOLDER_FRAME, timer + 1)]
  {
    if allocStatus == 0 then
      var w := CacheWrite(p.tlb, timer, p.pid, regIndex, ALLOC_PLACEHOLDER_FRAME);
      Outcome(p.(tlb := w.table), w.timer, allocStatus, false)
    else
      Outcome(p, timer, allocStatus, false)
  }

  /** tlbfree_data: `__free`'s result is discarded. Returns 0 when (pid, region)
      is cached and -1 otherwise. On a hit, the write of the freed marker is itself
      a hit, so it does not land: only the first matching slot changes, restamped
      by the read and again by the write, and the clock advances by two. A miss
      changes nothing. */
  function TlbFreeData(p: Proc, timer: int, regIndex: int, signedByte: bool): (r: Outcome)
    ensures !r.offsetFlushed
    ensures r.status == OK <==> Cached(p.tlb, p.pid, regIndex)
    ensures r.status != OK ==> r == Outcome(p, timer, FAIL, false)
    ensures r.status == OK ==>
              && r.proc == p.(tlb := r.proc.tlb)
              && r.timer == timer + 2
              && |r.proc.tlb| == |p.tlb|
              && Cached(r.proc.tlb, p.pid, regIndex)
              && forall k :: 0 <= k < |p.tlb| ==> r.proc.tlb[k] == p.tlb[k].(lastUsed := r.proc.tlb[k].lastUsed)
    ensures r.status == OK ==>
              exists i :: FirstMatch(p.tlb, p.pid, regIndex, i)
                          && r.proc.tlb == p.tlb[i := p.tlb[i].(lastUsed := timer + 2)]
  {
    var rd := CacheRead(p.tlb, timer, p.pid, regIndex);
    if rd.status == OK then
      ReadThenWriteHit(p.tlb, timer, p.pid, regIndex, ToByte(FREED_FRAME, signedByte));
      var w := CacheWrite(rd.table, rd.timer, p.pid, regIndex, ToByte(FREED_FRAME, signedByte));
      Outcome(p.(tlb := w.table), w.timer, OK, false)
    else
      Outcome(p, timer, FAIL, false)
  }

  /** tlbread: returns `__read`'s result `readStatus` whatever the cache says; the
      cached frame never stands in for the read. The status of the lookup is
      stored in a BYTE before its sign is tested, so:
      - on a hit only the lookup's timestamp refresh happens;
      - on a miss with an unsigned BYTE nothing is inserted;
      - on a miss with a signed BYTE, (pid, source) is inserted with the
        destination index (truncated to a BYTE) as frame, and
        tlb_flush_tlb_offset is called exactly when that insertion evicted. */
  function TlbRead(p: Proc, timer: int, source: int, destination: int, readStatus: int, signedByte: bool): (r: Outcome)
    requires signedByte ==> |p.tlb| >= 1
    ensures r.status == readStatus
    ensures r.proc == p.(tlb := r.proc.tlb)
    ensures Cached(p.tlb, p.pid, source) ==>
              && r.timer == timer + 1 && !r.offsetFlushed
              && exists i :: FirstMatch(p.tlb, p.pid, source, i)
                             && r.proc.tlb == p.tlb[i := p.tlb[i].(lastUsed := timer + 1)]
    ensures !Cached(p.tlb, p.pid, source) && !signedByte ==>
              r == Outcome(p, timer, readStatus, false)
    ensures !Cached(p.tlb, p.pid, source) && signedByte ==>
              && r.timer == timer + 1
              && Cached(r.proc.tlb, p.pid, source)
              && (r.offsetFlushed <==> Full(p.tlb))
    ensures !Cached(p.tlb, p.pid, source) && signedByte && !Full(p.tlb) ==>
              exists i :: FirstInvalidAt(p.tlb, i)
                          && r.proc.tlb == p.tlb[i := Entry(true, p.pid, source, ToByte(destination, true), timer + 1)]
    ensures !Cached(p.tlb, p.pid, source) && signedByte && Full(p.tlb) ==>
              exists i :: LruAt(p.tlb, i)
                          && r.proc.tlb == p.tlb[i := Entry(true, p.pid, source, ToByte(destination, true), timer + 1)]
  {
    var rd := CacheRead(p.tlb, timer, p.pid, source);
    var frmnum := ToByte(rd.status, signedByte);
    if frmnum < 0 then
      var w := CacheWrite(rd.table, rd.timer, p.pid, source, ToByte(destination, signedByte));
      Outcome(p.(tlb := w.table), w.timer, readStatus, w.status < 0)
    else
      Outcome(p.(tlb := rd.table), rd.timer, readStatus, false)
  }

  /** tlbwrite: returns `__write`'s result `writeStatus`; (pid, destination) is
      cached afterwards. A hit only restamps the matching slot, keeping its frame;
      a miss stores `data` in the first invalid or else the least recently used
      slot. When that write evicts (and a signed BYTE keeps its -1), the retry
      finds the key just inserted and returns 0, so tlb_flush_tlb_offset is never
      called, whatever the signedness of BYTE. */
  function TlbWrite(p: Proc, timer: int, data: int, destination: int, writeStatus: int, signedByte: bool): (r: Outcome)
    requires |p.tlb| >= 1
    ensures r.status == writeStatus
    ensures !r.offsetFlushed
    ensures r.proc == p.(tlb := r.proc.tlb)
    ensures Cached(r.proc.tlb, p.pid, destination)
    ensures r.timer == if signedByte && !Cached(p.tlb, p.pid, destination) && Full(p.tlb)
                       then timer + 2 else timer + 1
    ensures Cached(p.tlb, p.pid, destination) ==>
              exists i :: FirstMatch(p.tlb, p.pid, destination, i)
                          && r.proc.tlb == p.tlb[i := p.tlb[i].(lastUsed := timer + 1)]
    ensures !Cached(p.tlb, p.pid, destination) && !Full(p.tlb) ==>
              exists i :: FirstInvalidAt(p.tlb, i)
                          && r.proc.tlb == p.tlb[i := Entry(true, p.pid, destination, data, timer + 1)]
    ensures !Cached(p.tlb, p.pid, destination) && Full(p.tlb) ==>
              exists i :: LruAt(p.tlb, i)
                          && r.proc.tlb == p.tlb[i := Entry(true, p.pid, destination, data, r.timer)]
  {
    var w1 := CacheWrite(p.tlb, timer, p.pid, destination, data);
    var frmnum := ToByte(w1.status, signedByte);
    if frmnum < 0 then
      EvictThenRewrite(p.tlb, timer, p.pid, destination, data);
      var w2 := CacheWrite(w1.table, w1.timer, p.pid, destination, data);
      Outcome(p.(tlb := w2.table), w2.timer, writeStatus, w2.status < 0)
    else
      Outcome(p.(tlb := w1.table), w1.timer, writeStatus, false)
  }

  /** The requests keep the TLB invariant: each leaves at most one valid slot per
      key and no timestamp ahead of the clock, and none moves the clock back. */
  lemma AllocKeepsInv(p: Proc, timer: int, key: int, status: int)
    requires |p.tlb| >= 1 && Inv(p.tlb, timer)
    ensures var r := TlbAlloc(p, timer, key, status); Inv(r.proc.tlb, r.timer) && r.timer >= timer
  {
    WriteKeepsInv(p.tlb, timer, p.pid, key, ALLOC_PLACEHOLDER_FRAME);
  }

  lemma FreeDataKeepsInv(p: Proc, timer: int, key: int, signedByte: bool)
    requires Inv(p.tlb, timer)
    ensures var r := TlbFreeData(p, timer, key, signedByte); Inv(r.proc.tlb, r.timer) && r.timer >= timer
  {
    ReadKeepsInv(p.tlb, timer, p.pid, key);
    var rd := CacheRead(p.tlb, timer, p.pid, key);
    if rd.status == OK {
      WriteKeepsInv(rd.table, rd.timer, p.pid, key, ToByte(FREED_FRAME, signedByte));
    }
  }

  lemma ReadRequestKeepsInv(p: Proc, timer: int, key: int, value: int, status: int, signedByte: bool)
    requires (signedByte ==> |p.tlb| >= 1) && Inv(p.tlb, timer)
    ensures var r := TlbRead(p, timer, key, value, status, signedByte); Inv(r.proc.tlb, r.timer) && r.timer >= timer
  {
    ReadKeepsInv(p.tlb, timer, p.pid, key);
    var rd := CacheRead(p.tlb, timer, p.pid, key);
    if signedByte {
      WriteKeepsInv(rd.table, rd.timer, p.pid, key, ToByte(value, signedByte));
    }
  }

  lemma WriteRequestKeepsInv(p: Proc, timer: int, key: int, value: int, status: int, signedByte: bool)
    requires |p.tlb| >= 1 && Inv(p.tlb, timer)
    ensures var r := TlbWrite(p, timer, value, key, status, signedByte); Inv(r.proc.tlb, r.timer) && r.timer >= timer
  {
    WriteKeepsInv(p.tlb, timer, p.pid, key, value);
    var w1 := CacheWrite(p.tlb, timer, p.pid, key, value);
    WriteKeepsInv(w1.table, w1.timer, p.pid, key, value);
  }
}

=== FILE: memphy.dfy ===
/** The physical memory device of the paging simulator (src/mm-memphy.c): a byte
    store with a random-access flag and a cursor, a free-frame list used as a LIFO
    stack and a used-frame list of (frame, owner) pairs used as a FIFO queue.
    Linked lists become sequences whose index 0 is the list head. */
module MemPhy {
  import opened Common

  /** Identity of an address-space descriptor (`struct mm_struct *`); the C code
      compares owners by pointer equality only. */
  type MmId = int

  /** A node of the used-frame list: a frame number and the address space that
      claimed it. */
  datatype UsedFrame = UsedFrame(fpn: int, owner: MmId)

  /** A physical memory device. `storage` holds BYTE values and has `maxsz` cells
      on a device built by InitMemPhy; `cursor` is only meaningful for sequential
      devices (`rdmflg` false). */
  datatype Device = Device(
    storage: seq<int>,
    maxsz: int,
    rdmflg: bool,
    cursor: int,
    freeList: seq<int>,
    usedList: seq<UsedFrame>)

  /** A device together with a status code. */
  datatype DevStatus = DevStatus(dev: Device, status: int)

  /** Result of a byte access through a possibly NULL device handle: the device
      afterwards, the status code and the `*value` out-parameter afterwards. */
  datatype ByteAccess = ByteAccess(mp: Option<Device>, status: int, value: int)

  /** Result of taking a frame off the free list: `fpn` is the `*retfpn`
      out-parameter afterwards. */
  datatype Taken = Taken(dev: Device, status: int, fpn: int)

  /** Result of popping the used list: `node` is None for a NULL return. */
  datatype Popped = Popped(dev: Device, node: Option<UsedFrame>)

  // ---------------------------------------------------------------------------
  // Cursor

  /** The stepping loop of MEMPHY_mv_csr, continued from step `numstep` with the
      cursor at `cursor`. */
  function CursorWalk(cursor: nat, numstep: nat, offset: int, maxsz: int): (r: nat)
    ensures cursor < maxsz ==> r < maxsz
    ensures numstep < offset && numstep < maxsz ==> r < maxsz
    ensures numstep >= offset || numstep >= maxsz ==> r == cursor
    decreases maxsz - numstep
  {
    if numstep < offset && numstep < maxsz then
      CursorWalk((cursor + 1) % maxsz, numstep + 1, offset, maxsz)
    else
      cursor
  }

  /** Closed form of the stepping loop: started in step with the count, it stops
      at the smaller of the offset and the capacity, reduced modulo the capacity. */
  lemma {:induction false} CursorWalkCloses(numstep: nat, offset: int, maxsz: int)
    requires 0 < maxsz && numstep <= maxsz
    ensures CursorWalk(numstep % maxsz, numstep, offset, maxsz)
            == (if offset <= numstep then numstep else Min(offset, maxsz)) % maxsz
    decreases maxsz - numstep
  {
    if numstep < offset && numstep < maxsz {
      assert numstep % maxsz == numstep;
      assert (numstep % maxsz + 1) % maxsz == (numstep + 1) % maxsz;
      CursorWalkCloses(numstep + 1, offset, maxsz);
    } else if numstep < maxsz {
      assert numstep % maxsz == numstep;
    } else {
      assert numstep == maxsz;
    }
  }

  /** MEMPHY_mv_csr: reset the cursor, then walk it forward one cell at a time.
      The final cursor is `min(offset, maxsz) % maxsz` (0 for a non-positive
      offset or capacity); nothing else changes and the status is always 0. */
  function MvCsr(d: Device, offset: int): (r: DevStatus)
    ensures r.status == OK
    ensures r.dev == d.(cursor := if offset <= 0 || d.maxsz <= 0 then 0
                                  else Min(offset, d.maxsz) % d.maxsz)
  {
    var r := DevStatus(d.(cursor := CursorWalk(0, 0, offset, d.maxsz)), OK);
    if d.maxsz > 0 then CursorWalkCloses(0, offset, d.maxsz); r else r
  }

  // ---------------------------------------------------------------------------
  // Byte access

  /** What the C code needs of its callers for a byte access: a random-access
      device is indexed directly, so the address must lie inside the storage.
      Sequential devices are never indexed (their accesses are refused). */
  predicate AddrOk(mp: Option<Device>, addr: int)
  {
    mp.Some? && mp.value.rdmflg ==> 0 <= addr < |mp.value.storage|
  }

  /** MEMPHY_seq_read. The guard refuses devices whose `rdmflg` is clear, so only
      a random-access device gets past it; it then moves the cursor but reads
      `storage[addr]`, not the cell under the cursor. */
  function SeqRead(mp: Option<Device>, addr: int, value: int): (r: ByteAccess)
    requires AddrOk(mp, addr)
    ensures mp.None? ==> r == ByteAccess(None, FAIL, value)
    ensures mp.Some? && !mp.value.rdmflg ==> r == ByteAccess(mp, FAIL, value)
    ensures mp.Some? && mp.value.rdmflg ==>
              && r.status == OK
              && r.value == mp.value.storage[addr]
              && r.mp == Some(MvCsr(mp.value, addr).dev)
  {
    match mp
    case None => ByteAccess(None, FAIL, value)
    case Some(d) =>
      if !d.rdmflg then ByteAccess(mp, FAIL, value)
      else
        var moved := MvCsr(d, addr).dev;
        ByteAccess(Some(moved), OK, moved.storage[addr])
  }

  /** MEMPHY_read: a random-access device returns the addressed byte; any other
      device is handed to SeqRead, which refuses it. */
  function Read(mp: Option<Device>, addr: int, value: int): (r: ByteAccess)
    requires AddrOk(mp, addr)
    ensures r.mp == mp
    ensures r.status == OK <==> mp.Some? && mp.value.rdmflg
    ensures r.status == OK ==> r.value == mp.value.storage[addr]
    ensures r.status != OK ==> r.status == FAIL && r.value == value
  {
    match mp
    case None => ByteAccess(None, FAIL, value)
    case Some(d) =>
      if d.rdmflg then ByteAccess(mp, OK, d.storage[addr])
      else SeqRead(mp, addr, value)
  }

  /** MEMPHY_seq_write; the same guard and addressing as SeqRead. */
  function SeqWrite(mp: Option<Device>, addr: int, data: int): (r: ByteAccess)
    requires AddrOk(mp, addr)
    ensures mp.None? ==> r == ByteAccess(None, FAIL, data)
    ensures mp.Some? && !mp.value.rdmflg ==> r == ByteAccess(mp, FAIL, data)
    ensures mp.Some? && mp.value.rdmflg ==>
              && r.status == OK
              && r.mp == Some(MvCsr(mp.value, addr).dev.(storage := mp.value.storage[addr := data]))
  {
    match mp
    case None => ByteAccess(None, FAIL, data)
    case Some(d) =>
      if !d.rdmflg then ByteAccess(mp, FAIL, data)
      else
        var moved := MvCsr(d, addr).dev;
        ByteAccess(Some(moved.(storage := moved.storage[addr := data])), OK, data)
  }

  /** MEMPHY_write: a random-access device stores the byte at `addr`; any other
      device is handed to SeqWrite, which refuses it and changes nothing. The
      `value` field of the result carries `data` back. */
  function Write(mp: Option<Device>, addr: int, data: int): (r: ByteAccess)
    requires AddrOk(mp, addr)
    ensures r.status == OK <==> mp.Some? && mp.value.rdmflg
    ensures r.status != OK ==> r.status == FAIL && r.mp == mp
    ensures r.status == OK ==>
              && r.mp.Some?
              && r.mp.value == mp.value.(storage := r.mp.value.storage)
              && |r.mp.value.storage| == |mp.value.storage|
              && r.mp.value.storage[addr] == data
              && forall b :: 0 <= b < |mp.value.storage| && b != addr ==>
                   r.mp.value.storage[b] == mp.value.storage[b]
  {
    match mp
    case None => ByteAccess(None, FAIL, data)
    case Some(d) =>
      if d.rdmflg then ByteAccess(Some(d.(storage := d.storage[addr := data])), OK, data)
      else SeqWrite(mp, addr, data)
  }

  /** On a random-access device a byte written at `addr` is read back at `addr`,
      and every other address reads as it did before the write. */
  lemma WriteThenRead(d: Device, addr: int, b: int, data: int, value: int)
    requires d.rdmflg
    requires 0 <= addr < |d.storage| && 0 <= b < |d.storage|
    ensures Write(Some(d), addr, data).status == OK
    ensures Read(Write(Some(d), addr, data).mp, b, value)
            == ByteAccess(Write(Some(d), addr, data).mp, OK,
                          if b == addr then data else Read(Some(d), b, value).value)
  {
  }

  /** On a sequential device both byte accesses fail for every address and leave
      the device (storage and cursor) and the `*value` out-parameter untouched. */
  lemma SequentialDeviceRefusesAccess(d: Device, addr: int, data: int, value: int)
    requires !d.rdmflg
    ensures Read(Some(d), addr, value) == ByteAccess(Some(d), FAIL, value)
    ensures Write(Some(d), addr, data) == ByteAccess(Some(d), FAIL, data)
  {
  }

  /** Called directly on a random-access device, the sequential variants move the
      cursor to `addr % maxsz` yet access `storage[addr]`. */
  lemma SeqAccessOnRandomDevice(d: Device, addr: int, data: int, value: int)
    requires d.rdmflg && d.maxsz == |d.storage| && 0 <= addr < |d.storage|
    ensures SeqRead(Some(d), addr, value) == ByteAccess(Some(d.(cursor := addr)), OK, d.storage[addr])
    ensures SeqWrite(Some(d), addr, data)
            == ByteAccess(Some(d.(cursor := addr, storage := d.storage[addr := data])), OK, data)
  {
    assert Min(addr, d.maxsz) % d.maxsz == addr;
    assert MvCsr(d, addr).dev == d.(cursor := addr);
  }

  // ---------------------------------------------------------------------------
  // Free-frame list (LIFO)

  /** The frame numbers 0, 1, ..., n-1 in ascending order. */
  function Frames(n: nat): seq<int>
  {
    seq(n, i => i)
  }

  /** MEMPHY_format: with `numfp = maxsz / pagesz` (C division) the free list
      becomes exactly the frames 0 .. numfp-1 in ascending order; a device with no
      whole frame is refused and left as it was. */
  function Format(d: Device, pagesz: int): (r: DevStatus)
    requires pagesz > 0
    ensures r.status == OK <==> d.maxsz >= pagesz
    ensures r.status != OK ==> r == DevStatus(d, FAIL)
    ensures r.status == OK ==>
              && r.dev == d.(freeList := r.dev.freeList)
              && |r.dev.freeList| == CDiv(d.maxsz, pagesz)
              && forall i :: 0 <= i < |r.dev.freeList| ==> r.dev.freeList[i] == i
  {
    var numfp := CDiv(d.maxsz, pagesz);
    if numfp <= 0 then DevStatus(d, FAIL)
    else DevStatus(d.(freeList := Frames(numfp)), OK)
  }

  /** MEMPHY_get_freefp: pops the head of the free list into `*retfpn`. An empty
      list is refused and nothing changes. */
  function GetFreeFp(d: Device, retfpn: int): (r: Taken)
    ensures r.status == OK <==> d.freeList != []
    ensures r.status != OK ==> r == Taken(d, FAIL, retfpn)
    ensures r.status == OK ==> r.dev == d.(freeList := r.dev.freeList)
                               && [r.fpn] + r.dev.freeList == d.freeList
  {
    if d.freeList == [] then Taken(d, FAIL, retfpn)
    else Taken(d.(freeList := d.freeList[1..]), OK, d.freeList[0])
  }

  /** MEMPHY_put_freefp: pushes `fpn` on the head of the free list. */
  function PutFreeFp(d: Device, fpn: int): (r: DevStatus)
    ensures r.status == OK
    ensures r.dev == d.(freeList := r.dev.freeList)
    ensures |r.dev.freeList| == |d.freeList| + 1
    ensures r.dev.freeList[0] == fpn && r.dev.freeList[1..] == d.freeList
  {
    DevStatus(d.(freeList := [fpn] + d.freeList), OK)
  }

  /** LIFO round trip: a frame pushed on the free list is the next one popped, and
      the pop restores the device exactly. */
  lemma FreeListRoundTrip(d: Device, fpn: int, retfpn: int)
    ensures GetFreeFp(PutFreeFp(d, fpn).dev, retfpn) == Taken(d, OK, fpn)
  {
    assert ([fpn] + d.freeList)[1..] == d.freeList;
  }

  // ---------------------------------------------------------------------------
  // Used-frame list (FIFO with removal by frame number)

  /** First index at or after `from` whose node carries frame `fpn`: the scan of
      MEMPHY_remove_usedfp. */
  function IndexOfFpn(l: seq<UsedFrame>, fpn: int, from: nat): (r: Option<nat>)
    requires from <= |l|
    ensures r.Some? ==> from <= r.value < |l| && l[r.value].fpn == fpn
                        && forall k :: from <= k < r.value ==> l[k].fpn != fpn
    ensures r.None? ==> forall k :: from <= k < |l| ==> l[k].fpn != fpn
    decreases |l| - from
  {
    if from == |l| then None
    else if l[from].fpn == fpn then Some(from)
    else IndexOfFpn(l, fpn, from + 1)
  }

  /** The list `l` without its node at index `j`, the rest kept in order. */
  function RemoveAt<T>(l: seq<T>, j: nat): (r: seq<T>)
    requires j < |l|
    ensures |r| == |l| - 1
    ensures forall k :: 0 <= k < j ==> r[k] == l[k]
    ensures forall k :: j <= k < |r| ==> r[k] == l[k + 1]
  {
    l[..j] + l[j + 1..]
  }

  /** MEMPHY_remove_usedfp: unlinks the first node carrying frame `fpn`, keeping
      the others in order; when no node carries it (in particular on an empty
      list) the status is -1 and the list is unchanged. */
  function RemoveUsedFp(d: Device, fpn: int): (r: DevStatus)
    ensures r.dev == d.(usedList := r.dev.usedList)
    ensures r.status == OK <==> exists k :: 0 <= k < |d.usedList| && d.usedList[k].fpn == fpn
    ensures r.status != OK ==> r == DevStatus(d, FAIL)
    ensures r.status == OK ==>
              exists j :: 0 <= j < |d.usedList| && d.usedList[j].fpn == fpn
                          && (forall k :: 0 <= k < j ==> d.usedList[k].fpn != fpn)
                          && r.dev.usedList == RemoveAt(d.usedList, j)
  {
    match IndexOfFpn(d.usedList, fpn, 0)
    case None => DevStatus(d, FAIL)
    case Some(j) => DevStatus(d.(usedList := RemoveAt(d.usedList, j)), OK)
  }

  /** MEMPHY_put_usedfp: appends `(fpn, owner)` at the tail of the used list. */
  function PutUsedFp(d: Device, fpn: int, owner: MmId): (r: DevStatus)
    ensures r.status == OK
    ensures r.dev == d.(usedList := r.dev.usedList)
    ensures |r.dev.usedList| == |d.usedList| + 1
    ensures r.dev.usedList[..|d.usedList|] == d.usedList
    ensures r.dev.usedList[|d.usedList|] == UsedFrame(fpn, owner)
  {
    DevStatus(d.(usedList := d.usedList + [UsedFrame(fpn, owner)]), OK)
  }

  /** MEMPHY_get_usedfp: pops the head of the used list; NULL (None) when the
      list is empty. */
  function GetUsedFp(d: Device): (r: Popped)
    ensures r.node.None? <==> d.usedList == []
    ensures r.node.None? ==> r.dev == d
    ensures r.node.Some? ==> r.dev == d.(usedList := r.dev.usedList)
                             && [r.node.value] + r.dev.usedList == d.usedList
  {
    if d.usedList == [] then Popped(d, None)
    else Popped(d.(usedList := d.usedList[1..]), Some(d.usedList[0]))
  }

  /** FIFO order: after appending a node, popping yields the old head when there
      was one and the new node otherwise; the appended node stays last. */
  lemma UsedListFifo(d: Device, fpn: int, owner: MmId)
    ensures var p := GetUsedFp(PutUsedFp(d, fpn, owner).dev);
            && p.node == Some(if d.usedList == [] then UsedFrame(fpn, owner) else d.usedList[0])
            && (d.usedList == [] ==> p.dev.usedList == [])
            && (d.usedList != [] ==> p.dev.usedList == d.usedList[1..] + [UsedFrame(fpn, owner)])
  {
    if d.usedList != [] {
      assert (d.usedList + [UsedFrame(fpn, owner)])[1..] == d.usedList[1..] + [UsedFrame(fpn, owner)];
    }
  }

  // ---------------------------------------------------------------------------
  // Initialisation

  /** init_memphy on the struct `d` the caller passes in (whose fields may hold
      anything). `contents` stands for the uninitialised bytes `malloc` returns and
      `pagesz` for the build-time page size. The used list becomes empty, `rdmflg`
      is normalised from `randomflg`, a sequential device gets cursor 0, and the
      free list is formatted (when formatting fails, the old field survives). */
  function InitMemPhy(d: Device, maxSize: nat, contents: seq<int>, randomflg: int, pagesz: int): (r: DevStatus)
    requires |contents| == maxSize && pagesz > 0
    ensures r.status == OK
    ensures r.dev.storage == contents && r.dev.maxsz == maxSize
    ensures r.dev.usedList == []
    ensures r.dev.rdmflg <==> randomflg != 0
    ensures r.dev.cursor == if randomflg == 0 then 0 else d.cursor
    ensures maxSize >= pagesz ==> |r.dev.freeList| == maxSize / pagesz
                                  && forall i :: 0 <= i < |r.dev.freeList| ==> r.dev.freeList[i] == i
    ensures maxSize < pagesz ==> r.dev.freeList == d.freeList
  {
    var sized := d.(storage := contents, maxsz := maxSize, usedList := []);
    var formatted := Format(sized, pagesz).dev;
    var rdm := randomflg != 0;
    DevStatus(formatted.(rdmflg := rdm, cursor := if !rdm then 0 else formatted.cursor), OK)
  }

  // ---------------------------------------------------------------------------
  // Frame accounting

  /** The frame numbers of a used list, in list order. */
  function Fpns(l: seq<UsedFrame>): seq<int>
  {
    seq(|l|, i requires 0 <= i < |l| => l[i].fpn)
  }

  /** Every frame 0 .. n-1 is in exactly one of the two lists, exactly once, and
      no other frame number is in either list. */
  ghost predicate Partitioned(d: Device, n: nat)
  {
    multiset(d.freeList) + multiset(Fpns(d.usedList)) == multiset(Frames(n))
  }

  /** No two nodes of a used list carry the same frame. */
  predicate UniqueFpns(l: seq<UsedFrame>)
  {
    forall a, b :: 0 <= a < b < |l| ==> l[a].fpn != l[b].fpn
  }

  lemma {:induction false} FramesCount(n: nat, f: int)
    ensures multiset(Frames(n))[f] == if 0 <= f < n then 1 else 0
  {
    if n > 0 {
      assert Frames(n) == Frames(n - 1) + [n - 1];
      FramesCount(n - 1, f);
    }
  }

  lemma FpnsConcat(a: seq<UsedFrame>, b: seq<UsedFrame>)
    ensures Fpns(a + b) == Fpns(a) + Fpns(b)
  {
  }

  /** A value found at two positions occurs at least twice. */
  lemma CountsRepeat(s: seq<int>, a: nat, b: nat)
    requires a < b < |s|
    ensures s[a] == s[b] ==> multiset(s)[s[a]] >= 2
  {
    assert s == s[..b] + s[b..];
    assert s[a] == s[..b][a];
    assert s[b..][0] == s[b];
    assert s[a] in multiset(s[..b]);
    assert s[b] in multiset(s[b..]);
  }

  /** A sequence in which no value occurs twice has pairwise distinct elements. */
  lemma DistinctFromCounts(s: seq<int>)
    requires forall x :: multiset(s)[x] <= 1
    ensures forall a, b :: 0 <= a < b < |s| ==> s[a] != s[b]
  {
    forall a, b | 0 <= a < b < |s|
      ensures s[a] != s[b]
    {
      CountsRepeat(s, a, b);
    }
  }

  /** In a partitioned device every frame 0 .. n-1 is either free or used, never
      both and never twice, frames outside the range are in neither list, and the
      used list carries no frame twice. */
  lemma {:induction false} PartitionedExactlyOnce(d: Device, n: nat, f: int)
    requires Partitioned(d, n)
    ensures multiset(d.freeList)[f] + multiset(Fpns(d.usedList))[f] == if 0 <= f < n then 1 else 0
    ensures UniqueFpns(d.usedList)
  {
    FramesCount(n, f);
    forall x ensures multiset(Fpns(d.usedList))[x] <= 1 {
      FramesCount(n, x);
    }
    DistinctFromCounts(Fpns(d.usedList));
    forall a, b | 0 <= a < b < |d.usedList|
      ensures d.usedList[a].fpn != d.usedList[b].fpn
    {
      assert Fpns(d.usedList)[a] != Fpns(d.usedList)[b];
    }
  }

  /** A freshly initialised device whose storage holds at least one frame is
      partitioned: all its frames are free. */
  lemma InitPartitioned(d: Device, maxSize: nat, contents: seq<int>, randomflg: int, pagesz: int)
    requires |contents| == maxSize && pagesz > 0 && maxSize >= pagesz
    ensures Partitioned(InitMemPhy(d, maxSize, contents, randomflg, pagesz).dev, maxSize / pagesz)
  {
    var r := InitMemPhy(d, maxSize, contents, randomflg, pagesz).dev;
    assert r.freeList == Frames(maxSize / pagesz);
    assert Fpns(r.usedList) == [];
  }

  /** Moving the head of the free list to the tail of the used list (the
      allocation path: get a free frame, then claim it) keeps the partition. */
  lemma AcquireClaimPartitioned(d: Device, n: nat, retfpn: int, owner: MmId)
    requires Partitioned(d, n) && d.freeList != []
    ensures var t := GetFreeFp(d, retfpn);
            t.status == OK && Partitioned(PutUsedFp(t.dev, t.fpn, owner).dev, n)
  {
    var t := GetFreeFp(d, retfpn);
    var u := PutUsedFp(t.dev, t.fpn, owner).dev;
    assert d.freeList == [t.fpn] + t.dev.freeList;
    FpnsConcat(d.usedList, [UsedFrame(t.fpn, owner)]);
    assert Fpns(u.usedList) == Fpns(d.usedList) + [t.fpn];
  }

  /** Removing node `j` takes exactly its frame out of the frames of the list. */
  lemma RemoveAtFpns(l: seq<UsedFrame>, j: nat)
    requires j < |l|
    ensures multiset(Fpns(RemoveAt(l, j))) + multiset{l[j].fpn} == multiset(Fpns(l))
  {
    assert l == l[..j] + [l[j]] + l[j + 1..];
    assert RemoveAt(l, j) == l[..j] + l[j + 1..];
    FpnsConcat(l[..j] + [l[j]], l[j + 1..]);
    FpnsConcat(l[..j], [l[j]]);
    FpnsConcat(l[..j], l[j + 1..]);
  }

  /** Removing node `j` of the used list and pushing its frame on the
      free list keeps the partition. */
  lemma MovePartitioned(d: Device, n: nat, j: nat)
    requires Partitioned(d, n) && j < |d.usedList|
    ensures Partitioned(d.(usedList := RemoveAt(d.usedList, j),
                           freeList := [d.usedList[j].fpn] + d.freeList), n)
  {
    var l := d.usedList;
    assert l == l[..j] + [l[j]] + l[j + 1..];
    FpnsConcat(l[..j] + [l[j]], l[j + 1..]);
    FpnsConcat(l[..j], [l[j]]);
    FpnsConcat(l[..j], l[j + 1..]);
  }

  /** Releasing a used frame (unclaim it, then put it back on the free list) keeps
      the partition. Pushing a frame that is not in the used list, a double
      release, is the caller error the C code does not check. */
  lemma UnclaimReleasePartitioned(d: Device, n: nat, fpn: int)
    requires Partitioned(d, n)
    requires RemoveUsedFp(d, fpn).status == OK
    ensures Partitioned(PutFreeFp(RemoveUsedFp(d, fpn).dev, fpn).dev, n)
  {
    var j :| 0 <= j < |d.usedList| && d.usedList[j].fpn == fpn
             && (forall k :: 0 <= k < j ==> d.usedList[k].fpn != fpn)
             && RemoveUsedFp(d, fpn).dev.usedList == RemoveAt(d.usedList, j);
    MovePartitioned(d, n, j);
  }

  /** End-to-end: a four-frame device hands out frames 0, 1, 2, 3 in that order;
      after frame 1 is released it is the next one handed out. */
  lemma FourFrameScenario(d: Device, contents: seq<int>, pagesz: int, x: int)
    requires pagesz > 0 && |contents| == 4 * pagesz
    ensures var d0 := InitMemPhy(d, 4 * pagesz, contents, 1, pagesz).dev;
            var t0 := GetFreeFp(d0, x);
            var t1 := GetFreeFp(t0.dev, x);
            var t2 := GetFreeFp(t1.dev, x);
            var t3 := GetFreeFp(t2.dev, x);
            var t4 := GetFreeFp(PutFreeFp(t3.dev, 1).dev, x);
            && [t0.fpn, t1.fpn, t2.fpn, t3.fpn] == [0, 1, 2, 3]
            && t3.dev.freeList == []
            && t4 == Taken(t3.dev, OK, 1)
  {
    var d0 := InitMemPhy(d, 4 * pagesz, contents, 1, pagesz).dev;
    assert 4 * pagesz / pagesz == 4;
    assert d0.freeList == [0, 1, 2, 3];
    FreeListRoundTrip(GetFreeFp(GetFreeFp(GetFreeFp(GetFreeFp(d0, x).dev, x).dev, x).dev, x).dev, 1, x);
  }
}

=== FILE: tlbcache.dfy ===
/** The TLB cache (src/cpu-tlbcache.c): a fixed-capacity, fully associative table
    of translation entries with least-recently-used replacement, stamped by the
    process-wide logical clock `global_timer`. The clock is shared by every cache
    in the system, so it is threaded through the operations as a separate value
    rather than stored in a table. */
module TlbCache {
  import opened Common

  /** One slot of the table (the C struct TLBEntry). */
  datatype Entry = Entry(valid: bool, pid: int, pageNumber: int, frameNumber: int, lastUsed: int)

  /** `sizeof(TLBEntry)`: five 4-byte `int` fields. */
  const ENTRY_SIZE: nat := 20

  /** The slot contents init_tlbmemphy writes. */
  const EmptyEntry: Entry := Entry(false, -1, -1, -1, 0)

  /** Result of tlb_cache_read: the table and clock afterwards, the status code,
      and the cached frame number on a hit. */
  datatype Lookup = Lookup(table: seq<Entry>, timer: int, status: int, frame: Option<int>)

  /** Result of tlb_cache_write: the table and clock afterwards and the status. */
  datatype Update = Update(table: seq<Entry>, timer: int, status: int)

  /** A translation for process `pid`, page `pg`, stored in `e`. */
  predicate Matches(e: Entry, pid: int, pg: int)
  {
    e.valid && e.pid == pid && e.pageNumber == pg
  }

  /** Some slot of `t` holds a translation for (pid, pg). */
  ghost predicate Cached(t: seq<Entry>, pid: int, pg: int)
  {
    exists i :: 0 <= i < |t| && Matches(t[i], pid, pg)
  }

  /** Slot `i` is the lowest-index slot holding a translation for (pid, pg). */
  ghost predicate FirstMatch(t: seq<Entry>, pid: int, pg: int, i: int)
  {
    && 0 <= i < |t| && Matches(t[i], pid, pg)
    && forall k :: 0 <= k < i ==> !Matches(t[k], pid, pg)
  }

  /** Every slot of `t` is valid. */
  ghost predicate Full(t: seq<Entry>)
  {
    forall k :: 0 <= k < |t| ==> t[k].valid
  }

  /** Slot `i` is the lowest-index invalid slot. */
  ghost predicate FirstInvalidAt(t: seq<Entry>, i: int)
  {
    0 <= i < |t| && !t[i].valid && forall k :: 0 <= k < i ==> t[k].valid
  }

  /** Slot `i` has the least `lastUsed` of the table, and every slot before it a
      strictly larger one: the first minimum of a strict `<` scan. */
  ghost predicate LruAt(t: seq<Entry>, i: int)
  {
    && 0 <= i < |t|
    && (forall k :: 0 <= k < |t| ==> t[i].lastUsed <= t[k].lastUsed)
    && (forall k :: 0 <= k < i ==> t[k].lastUsed > t[i].lastUsed)
  }

  /** At most one valid slot per (pid, page number). */
  ghost predicate KeysUnique(t: seq<Entry>)
  {
    forall i, j :: 0 <= i < j < |t| && t[i].valid && t[j].valid ==>
      t[i].pid != t[j].pid || t[i].pageNumber != t[j].pageNumber
  }

  /** No slot carries a timestamp later than the clock. */
  ghost predicate Stamped(t: seq<Entry>, timer: int)
  {
    forall i :: 0 <= i < |t| ==> t[i].lastUsed <= timer
  }

  /** The invariant every cache keeps against the global clock. */
  ghost predicate Inv(t: seq<Entry>, timer: int)
  {
    KeysUnique(t) && Stamped(t, timer)
  }

  // ---------------------------------------------------------------------------
  // Initialisation

  /** A table of `n` slots as init_tlbmemphy leaves them. */
  function EmptyTable(n: nat): seq<Entry>
  {
    seq(n, _ => EmptyEntry)
  }

  /** init_tlbmemphy: the storage of `maxSize` bytes is a table of
      `maxSize / sizeof(TLBEntry)` slots, each invalid with pid, page and frame -1
      and timestamp 0, so no translation is cached. */
  function InitTlb(maxSize: nat): (t: seq<Entry>)
    ensures |t| == maxSize / ENTRY_SIZE
    ensures forall i :: 0 <= i < |t| ==> t[i] == Entry(false, -1, -1, -1, 0)
    ensures forall pid, pg :: !Cached(t, pid, pg)
  {
    EmptyTable(maxSize / ENTRY_SIZE)
  }

  /** A fresh table satisfies the invariant against any non-negative clock, and
      every lookup in it misses without changing anything. */
  lemma InitTlbInv(maxSize: nat, timer: int, pid: int, pg: int)
    requires timer >= 0
    ensures Inv(InitTlb(maxSize), timer)
    ensures CacheRead(InitTlb(maxSize), timer, pid, pg) == Lookup(InitTlb(maxSize), timer, FAIL, None)
  {
  }

  // ---------------------------------------------------------------------------
  // Scans

  /** The lookup scan of tlb_cache_read, from slot `from` on. */
  function FindHit(t: seq<Entry>, pid: int, pg: int, from: nat): (r: Option<nat>)
    requires from <= |t|
    ensures r.Some? ==> from <= r.value < |t| && Matches(t[r.value], pid, pg)
                        && forall k :: from <= k < r.value ==> !Matches(t[k], pid, pg)
    ensures r.None? ==> forall k :: from <= k < |t| ==> !Matches(t[k], pid, pg)
    decreases |t| - from
  {
    if from == |t| then None
    else if Matches(t[from], pid, pg) then Some(from)
    else FindHit(t, pid, pg, from + 1)
  }

  /** The empty-slot scan of tlb_cache_write, from slot `from` on. */
  function FindInvalid(t: seq<Entry>, from: nat): (r: Option<nat>)
    requires from <= |t|
    ensures r.Some? ==> from <= r.value < |t| && !t[r.value].valid
                        && forall k :: from <= k < r.value ==> t[k].valid
    ensures r.None? ==> forall k :: from <= k < |t| ==> t[k].valid
    decreases |t| - from
  {
    if from == |t| then None
    else if !t[from].valid then Some(from)
    else FindInvalid(t, from + 1)
  }

  /** Continues a strict `<` minimum scan at slot `i`, `best` being the first
      minimum of the slots before `i`. */
  function MinFrom(t: seq<Entry>, i: nat, best: nat): (r: nat)
    requires best < i <= |t|
    requires forall k :: 0 <= k < i ==> t[best].lastUsed <= t[k].lastUsed
    requires forall k :: 0 <= k < best ==> t[k].lastUsed > t[best].lastUsed
    ensures LruAt(t, r)
    decreases |t| - i
  {
    if i == |t| then best
    else if t[i].lastUsed < t[best].lastUsed then MinFrom(t, i + 1, i)
    else MinFrom(t, i + 1, best)
  }

  /** The replacement victim: the least recently used slot, lowest index first. */
  function LruSlot(t: seq<Entry>): (r: nat)
    requires |t| >= 1
    ensures LruAt(t, r)
  {
    MinFrom(t, 1, 0)
  }

  /** The first minimum is unique. */
  lemma LruAtUnique(t: seq<Entry>, i: int, j: int)
    requires LruAt(t, i) && LruAt(t, j)
    ensures i == j
  {
    var ei, ej := t[i], t[j];
    assert ei.lastUsed <= ej.lastUsed && ej.lastUsed <= ei.lastUsed;
  }

  /** The C loop of tlb_cache_write after its lookup missed (lines 80-92): one
      pass that stops at the first invalid slot and otherwise tracks the
      least `last_used` with a strict `<` from the sentinel INT_MAX. It agrees
      with FindInvalid and LruSlot as long as the clock never reached INT_MAX. */
  method ChooseSlot(t: seq<Entry>) returns (slot: int, evict: bool)
    requires |t| >= 1
    requires forall k :: 0 <= k < |t| ==> t[k].lastUsed < INT_MAX
    ensures 0 <= slot < |t|
    ensures !evict ==> FirstInvalidAt(t, slot) && FindInvalid(t, 0) == Some(slot)
    ensures evict ==> Full(t) && LruAt(t, slot) && slot == LruSlot(t)
  {
    var minIndex := -1;
    var minTime := INT_MAX;
    var i := 0;
    while i < |t|
      invariant 0 <= i <= |t|
      invariant forall k :: 0 <= k < i ==> t[k].valid
      invariant i == 0 ==> minIndex == -1 && minTime == INT_MAX
      invariant i > 0 ==> && 0 <= minIndex < i && minTime == t[minIndex].lastUsed
                          && (forall k :: 0 <= k < i ==> minTime <= t[k].lastUsed)
                          && (forall k :: 0 <= k < minIndex ==> t[k].lastUsed > minTime)
    {
      if !t[i].valid {
        var fi := FindInvalid(t, 0);
        assert fi.Some? && fi.value == i by {
          if fi.None? || fi.value < i {
            assert false;
          }
        }
        return i, false;
      }
      if t[i].lastUsed < minTime {
        minTime := t[i].lastUsed;
        minIndex := i;
      }
      i := i + 1;
    }
    LruAtUnique(t, minIndex, LruSlot(t));
    return minIndex, true;
  }

  // ---------------------------------------------------------------------------
  // Read and write

  /** tlb_cache_read. On a hit the lowest-index matching slot gives its frame
      number and gets timestamp `global_timer + 1`, the clock advances by exactly
      one and no other slot changes; a miss returns -1 and changes nothing. */
  function CacheRead(t: seq<Entry>, timer: int, pid: int, pg: int): (r: Lookup)
    ensures r.status == OK <==> Cached(t, pid, pg)
    ensures r.status != OK ==> r == Lookup(t, timer, FAIL, None)
    ensures r.status == OK ==>
              exists i :: FirstMatch(t, pid, pg, i)
                          && r.frame == Some(t[i].frameNumber)
                          && r.table == t[i := t[i].(lastUsed := timer + 1)]
                          && r.timer == timer + 1
  {
    match FindHit(t, pid, pg, 0)
    case None => Lookup(t, timer, FAIL, None)
    case Some(i) =>
      assert FirstMatch(t, pid, pg, i);
      Lookup(t[i := t[i].(lastUsed := timer + 1)], timer + 1, OK, Some(t[i].frameNumber))
  }

  /** A hit leaves the key cached. */
  lemma ReadHitStaysCached(t: seq<Entry>, timer: int, pid: int, pg: int)
    requires Cached(t, pid, pg)
    ensures Cached(CacheRead(t, timer, pid, pg).table, pid, pg)
  {
    var r := CacheRead(t, timer, pid, pg);
    var i :| FirstMatch(t, pid, pg, i) && r.table == t[i := t[i].(lastUsed := timer + 1)];
    assert Matches(r.table[i], pid, pg);
  }

  /** A hit followed at once by a write of the same key: both land on the first
      matching slot, which ends stamped two ticks later; no other slot changes. */
  lemma ReadThenWriteHit(t: seq<Entry>, timer: int, pid: int, pg: int, value: int)
    requires Cached(t, pid, pg)
    ensures var rd := CacheRead(t, timer, pid, pg);
            && |rd.table| == |t| && Cached(rd.table, pid, pg)
            && exists i :: FirstMatch(t, pid, pg, i)
                           && CacheWrite(rd.table, rd.timer, pid, pg, value).table
                              == t[i := t[i].(lastUsed := timer + 2)]
  {
    var rd := CacheRead(t, timer, pid, pg);
    var i :| FirstMatch(t, pid, pg, i) && rd.table == t[i := t[i].(lastUsed := timer + 1)];
    assert Matches(rd.table[i], pid, pg);
    assert FirstMatch(rd.table, pid, pg, i);
    var w := CacheWrite(rd.table, rd.timer, pid, pg, value);
    var j :| FirstMatch(rd.table, pid, pg, j) && w.table == rd.table[j := rd.table[j].(lastUsed := rd.timer + 1)];
    assert j == i;
  }

  /** tlb_cache_write of frame `value` for (pid, pg); the table has at least one
      slot (with none, the C code writes before the table). The clock always
      advances by exactly one and the key is cached afterwards.
      - Already cached: status 0, and only the lookup's timestamp refresh happens;
        the stored frame number is NOT replaced by `value`.
      - Not cached, an invalid slot exists: the lowest-index one is filled, status 0.
      - Not cached, table full: the least recently used slot (lowest index on a
        tie) is overwritten, status -1. */
  function CacheWrite(t: seq<Entry>, timer: int, pid: int, pg: int, value: int): (r: Update)
    requires |t| >= 1
    ensures r.timer == timer + 1
    ensures |r.table| == |t|
    ensures Cached(r.table, pid, pg)
    ensures Cached(t, pid, pg) ==>
              && r.status == OK
              && exists i :: FirstMatch(t, pid, pg, i) && r.table == t[i := t[i].(lastUsed := timer + 1)]
    ensures !Cached(t, pid, pg) && !Full(t) ==>
              && r.status == OK
              && exists i :: FirstInvalidAt(t, i) && r.table == t[i := Entry(true, pid, pg, value, timer + 1)]
    ensures !Cached(t, pid, pg) && Full(t) ==>
              && r.status == FAIL
              && exists i :: LruAt(t, i) && r.table == t[i := Entry(true, pid, pg, value, timer + 1)]
  {
    var rd := CacheRead(t, timer, pid, pg);
    if rd.status == OK then
      ReadHitStaysCached(t, timer, pid, pg);
      Update(rd.table, rd.timer, OK)
    else
      var inserted := Entry(true, pid, pg, value, timer + 1);
      match FindInvalid(t, 0)
      case Some(i) =>
        assert FirstInvalidAt(t, i);
        assert Matches(t[i := inserted][i], pid, pg);
        Update(t[i := inserted], timer + 1, OK)
      case None =>
        var v := LruSlot(t);
        assert Matches(t[v := inserted][v], pid, pg);
        Update(t[v := inserted], timer + 1, FAIL)
  }

  // ---------------------------------------------------------------------------
  // Invariants

  /** A lookup keeps the invariant and never moves the clock back. */
  lemma ReadKeepsInv(t: seq<Entry>, timer: int, pid: int, pg: int)
    requires Inv(t, timer)
    ensures var r := CacheRead(t, timer, pid, pg);
            Inv(r.table, r.timer) && r.timer >= timer
  {
    var r := CacheRead(t, timer, pid, pg);
    if r.status == OK {
      var i :| FirstMatch(t, pid, pg, i) && r.table == t[i := t[i].(lastUsed := timer + 1)];
      assert forall k :: 0 <= k < |t| ==>
        r.table[k].valid == t[k].valid && r.table[k].pid == t[k].pid && r.table[k].pageNumber == t[k].pageNumber;
    }
  }

  /** Restamping slot `i` with the next clock value keeps the invariant and
      makes that slot the strictly newest. */
  lemma RestampKeepsInv(t: seq<Entry>, timer: int, i: int)
    requires Inv(t, timer) && 0 <= i < |t|
    ensures var u := t[i := t[i].(lastUsed := timer + 1)];
            && Inv(u, timer + 1)
            && forall k :: 0 <= k < |u| && k != i ==> u[k].lastUsed < timer + 1
  {
    var u := t[i := t[i].(lastUsed := timer + 1)];
    assert forall k :: 0 <= k < |t| ==>
      u[k].valid == t[k].valid && u[k].pid == t[k].pid && u[k].pageNumber == t[k].pageNumber;
  }

  /** Putting a key that is not cached into slot `i`, stamped with the next clock
      value, keeps the invariant and makes that slot the strictly newest. */
  lemma InsertKeepsInv(t: seq<Entry>, timer: int, i: int, e: Entry)
    requires Inv(t, timer) && 0 <= i < |t|
    requires e.lastUsed == timer + 1 && !Cached(t, e.pid, e.pageNumber)
    ensures var u := t[i := e];
            && Inv(u, timer + 1)
            && forall k :: 0 <= k < |u| && k != i ==> u[k].lastUsed < timer + 1
  {
  }

  /** A write keeps the invariant (at most one valid slot per key, no timestamp
      ahead of the clock), advances the clock, and leaves the written key in a slot
      whose timestamp is the clock and strictly larger than every other slot's. */
  lemma WriteKeepsInv(t: seq<Entry>, timer: int, pid: int, pg: int, value: int)
    requires |t| >= 1 && Inv(t, timer)
    ensures var r := CacheWrite(t, timer, pid, pg, value);
            && Inv(r.table, r.timer)
            && r.timer > timer
            && exists i :: 0 <= i < |r.table| && Matches(r.table[i], pid, pg)
                           && r.table[i].lastUsed == r.timer
                           && forall k :: 0 <= k < |r.table| && k != i ==> r.table[k].lastUsed < r.timer
  {
    var r := CacheWrite(t, timer, pid, pg, value);
    var inserted := Entry(true, pid, pg, value, timer + 1);
    if Cached(t, pid, pg) {
      var i :| FirstMatch(t, pid, pg, i) && r.table == t[i := t[i].(lastUsed := timer + 1)];
      RestampKeepsInv(t, timer, i);
      assert Matches(r.table[i], pid, pg);
    } else if !Full(t) {
      var i :| FirstInvalidAt(t, i) && r.table == t[i := inserted];
      InsertKeepsInv(t, timer, i, inserted);
      assert Matches(r.table[i], pid, pg);
    } else {
      var i :| LruAt(t, i) && r.table == t[i := inserted];
      InsertKeepsInv(t, timer, i, inserted);
      assert Matches(r.table[i], pid, pg);
    }
  }

  /** Writing a key that is already cached is a hit: the status is 0 and no slot
      changes anything but its timestamp, so the stored frame survives. In
      particular writing the same key twice leaves the first write's frame. */
  lemma WriteCachedKeepsFrames(t: seq<Entry>, timer: int, pid: int, pg: int, value: int)
    requires |t| >= 1 && Cached(t, pid, pg)
    ensures var r := CacheWrite(t, timer, pid, pg, value);
            && r.status == OK
            && forall k :: 0 <= k < |t| ==> r.table[k] == t[k].(lastUsed := r.table[k].lastUsed)
  {
  }

  /** Idempotence: a second write of a key just written returns 0 and leaves
      every slot's contents, frame numbers included, as the first write left them. */
  lemma WriteTwice(t: seq<Entry>, timer: int, pid: int, pg: int, v1: int, v2: int)
    requires |t| >= 1
    ensures var r1 := CacheWrite(t, timer, pid, pg, v1);
            var r2 := CacheWrite(r1.table, r1.timer, pid, pg, v2);
            && r2.status == OK
            && forall k :: 0 <= k < |t| ==> r2.table[k] == r1.table[k].(lastUsed := r2.table[k].lastUsed)
  {
    var r1 := CacheWrite(t, timer, pid, pg, v1);
    WriteCachedKeepsFrames(r1.table, r1.timer, pid, pg, v2);
  }

  /** A write that evicted, repeated at once with the same key, is a hit on the
      slot it just filled: the retry returns 0 and only restamps that slot, so the
      pair amounts to one eviction of the least recently used slot stamped with the
      clock after both writes. */
  lemma EvictThenRewrite(t: seq<Entry>, timer: int, pid: int, pg: int, value: int)
    requires |t| >= 1 && !Cached(t, pid, pg) && Full(t)
    ensures var w1 := CacheWrite(t, timer, pid, pg, value);
            var w2 := CacheWrite(w1.table, w1.timer, pid, pg, value);
            && w1.status == FAIL && w2.status == OK && w2.timer == timer + 2
            && exists i :: LruAt(t, i) && w2.table == t[i := Entry(true, pid, pg, value, timer + 2)]
  {
    var w1 := CacheWrite(t, timer, pid, pg, value);
    var i :| LruAt(t, i) && w1.table == t[i := Entry(true, pid, pg, value, timer + 1)];
    assert Matches(w1.table[i], pid, pg);
    var w2 := CacheWrite(w1.table, w1.timer, pid, pg, value);
    var j :| FirstMatch(w1.table, pid, pg, j) && w2.table == w1.table[j := w1.table[j].(lastUsed := timer + 2)];
    assert !Matches(t[j], pid, pg);
    assert j == i;
    assert w2.table == t[i := Entry(true, pid, pg, value, timer + 2)];
  }

  // ---------------------------------------------------------------------------
  // LRU replacement

  /** A translation to insert. */
  datatype Mapping = Mapping(pid: int, page: int, frame: int)

  /** No two mappings share a (pid, page) key. */
  ghost predicate DistinctKeys(ms: seq<Mapping>)
  {
    forall a, b :: 0 <= a < b < |ms| ==> ms[a].pid != ms[b].pid || ms[a].page != ms[b].page
  }

  /** The last write of a batch is one cache write on the table the rest left. */
  lemma WriteAllLast(t: seq<Entry>, timer: int, ms: seq<Mapping>)
    requires |t| >= 1 && |ms| >= 1
    ensures var p := WriteAll(t, timer, ms[..|ms| - 1]);
            var m := ms[|ms| - 1];
            var u := CacheWrite(p.0, p.1, m.pid, m.page, m.frame);
            WriteAll(t, timer, ms) == (u.table, u.timer)
  {
  }

  /** Dropping the last mapping keeps the keys distinct. */
  lemma DistinctPrefix(ms: seq<Mapping>)
    requires |ms| >= 1 && DistinctKeys(ms)
    ensures DistinctKeys(ms[..|ms| - 1])
  {
  }

  /** Writes the mappings one after another, with no lookups in between. */
  function WriteAll(t: seq<Entry>, timer: int, ms: seq<Mapping>): (r: (seq<Entry>, int))
    requires |t| >= 1
    ensures |r.0| == |t| && r.1 == timer + |ms|
    decreases |ms|
  {
    if ms == [] then (t, timer)
    else
      var p := WriteAll(t, timer, ms[..|ms| - 1]);
      var m := ms[|ms| - 1];
      var u := CacheWrite(p.0, p.1, m.pid, m.page, m.frame);
      (u.table, u.timer)
  }

  /** The table after the mappings have been written, in order, into a fresh
      table of `n` slots with the clock at `timer`. */
  function Filled(n: nat, timer: int, ms: seq<Mapping>): seq<Entry>
  {
    seq(n, i requires 0 <= i < n =>
      if i < |ms| then Entry(true, ms[i].pid, ms[i].page, ms[i].frame, timer + i + 1)
      else EmptyEntry)
  }

  /** Slot `k` of a filled table holds the `k`-th mapping, stamped `timer + k + 1`. */
  lemma FilledAt(n: nat, timer: int, ms: seq<Mapping>, k: nat)
    requires k < n && k < |ms|
    ensures Filled(n, timer, ms)[k] == Entry(true, ms[k].pid, ms[k].page, ms[k].frame, timer + k + 1)
  {
  }

  /** A key none of the mappings carries is not cached in the filled table. */
  lemma FilledMisses(n: nat, timer: int, ms: seq<Mapping>, m: Mapping)
    requires |ms| <= n
    requires forall k :: 0 <= k < |ms| ==> ms[k].pid != m.pid || ms[k].page != m.page
    ensures !Cached(Filled(n, timer, ms), m.pid, m.page)
  {
    var t := Filled(n, timer, ms);
    forall k | 0 <= k < n
      ensures !Matches(t[k], m.pid, m.page)
    {
      if k < |ms| {
        FilledAt(n, timer, ms, k);
      }
    }
  }

  /** With no mapping written the filled table is the fresh one. */
  lemma FilledEmpty(n: nat, timer: int)
    ensures Filled(n, timer, []) == EmptyTable(n)
  {
  }

  /** One insertion of the fill: writing the next distinct mapping into a table
      filled with the ones before it takes the first invalid slot, the next one. */
  lemma FillStep(n: nat, timer: int, ms: seq<Mapping>, t: seq<Entry>, clock: int)
    requires 1 <= |ms| <= n && DistinctKeys(ms)
    requires t == Filled(n, timer, ms[..|ms| - 1]) && clock == timer + |ms| - 1
    ensures var m := ms[|ms| - 1];
            CacheWrite(t, clock, m.pid, m.page, m.frame).table == Filled(n, timer, ms)
  {
    var c := |ms| - 1;
    var init := ms[..c];
    var m := ms[c];
    assert forall k :: 0 <= k < |init| ==> init[k] == ms[k];
    FilledMisses(n, timer, init, m);
    assert !t[c].valid;
    var u := CacheWrite(t, clock, m.pid, m.page, m.frame);
    var i :| FirstInvalidAt(t, i) && u.table == t[i := Entry(true, m.pid, m.page, m.frame, clock + 1)];
    assert i == c;
    assert u.table == Filled(n, timer, ms);
  }

  /** Writing at most `n` distinct keys into a fresh table of `n` slots fills the
      slots in order, each with a later timestamp than the one before. */
  lemma {:induction false} FillInOrder(n: nat, timer: int, ms: seq<Mapping>)
    requires n >= 1 && |ms| <= n && DistinctKeys(ms)
    ensures WriteAll(EmptyTable(n), timer, ms).0 == Filled(n, timer, ms)
    decreases |ms|
  {
    if ms == [] {
      FilledEmpty(n, timer);
    } else {
      var init := ms[..|ms| - 1];
      DistinctPrefix(ms);
      FillInOrder(n, timer, init);
      var p := WriteAll(EmptyTable(n), timer, init);
      FillStep(n, timer, ms, p.0, p.1);
      WriteAllLast(EmptyTable(n), timer, ms);
    }
  }

  /** In a table filled by `n` writes the oldest slot, 0, is the replacement victim. */
  lemma FilledLruIsFirst(n: nat, timer: int, ms: seq<Mapping>)
    requires n >= 1 && |ms| == n
    ensures Full(Filled(n, timer, ms))
    ensures LruAt(Filled(n, timer, ms), 0)
  {
  }

  /** Writing a new key into a table filled by `n` distinct writes overwrites slot 0. */
  lemma FilledEvictsFirst(n: nat, timer: int, ms: seq<Mapping>, m: Mapping, t: seq<Entry>, clock: int)
    requires n >= 1 && |ms| == n
    requires forall k :: 0 <= k < n ==> ms[k].pid != m.pid || ms[k].page != m.page
    requires t == Filled(n, timer, ms) && clock == timer + n
    ensures CacheWrite(t, clock, m.pid, m.page, m.frame)
            == Update(t[0 := Entry(true, m.pid, m.page, m.frame, clock + 1)], clock + 1, FAIL)
  {
    FilledMisses(n, timer, ms, m);
    FilledLruIsFirst(n, timer, ms);
    var u := CacheWrite(t, clock, m.pid, m.page, m.frame);
    var i :| LruAt(t, i) && u.table == t[i := Entry(true, m.pid, m.page, m.frame, clock + 1)];
    LruAtUnique(t, i, 0);
  }

  /** After slot 0 of a filled table is overwritten with a new key, the first key
      is gone and every other key is still cached. */
  lemma EvictedFirstGone(n: nat, timer: int, ms: seq<Mapping>, e: Entry)
    requires n >= 1 && |ms| == n && DistinctKeys(ms)
    requires e.pid != ms[0].pid || e.pageNumber != ms[0].page
    ensures var u := Filled(n, timer, ms)[0 := e];
            && !Cached(u, ms[0].pid, ms[0].page)
            && forall k :: 1 <= k < n ==> Cached(u, ms[k].pid, ms[k].page)
  {
    var u := Filled(n, timer, ms)[0 := e];
    forall k | 1 <= k < n
      ensures Cached(u, ms[k].pid, ms[k].page)
    {
      FilledAt(n, timer, ms, k);
      assert Matches(u[k], ms[k].pid, ms[k].page);
    }
    forall k | 0 <= k < n
      ensures !Matches(u[k], ms[0].pid, ms[0].page)
    {
      if k > 0 {
        FilledAt(n, timer, ms, k);
      }
    }
  }

  /** LRU scenario: after `n` distinct keys are written into a fresh table of `n`
      slots, writing a new key evicts slot 0, which held the first key inserted;
      the write returns -1, the first key is no longer cached and the others are. */
  lemma LruEvictsFirstInserted(n: nat, timer: int, ms: seq<Mapping>, m: Mapping)
    requires n >= 1 && |ms| == n && DistinctKeys(ms)
    requires forall k :: 0 <= k < n ==> ms[k].pid != m.pid || ms[k].page != m.page
    ensures var w := WriteAll(EmptyTable(n), timer, ms);
            var u := CacheWrite(w.0, w.1, m.pid, m.page, m.frame);
            && u.status == FAIL
            && u.table == w.0[0 := Entry(true, m.pid, m.page, m.frame, w.1 + 1)]
            && !Cached(u.table, ms[0].pid, ms[0].page)
            && forall k :: 1 <= k < n ==> Cached(u.table, ms[k].pid, ms[k].page)
  {
    FillInOrder(n, timer, ms);
    var w := WriteAll(EmptyTable(n), timer, ms);
    FilledEvictsFirst(n, timer, ms, m, w.0, w.1);
    EvictedFirstGone(n, timer, ms, Entry(true, m.pid, m.page, m.frame, w.1 + 1));
  }

  /** Two-slot scenario: (1,5) -> 9 and (1,6) -> 10 are inserted with status 0;
      inserting (1,7) -> 11 evicts with status -1; afterwards (1,5) misses and
      (1,6) hits with frame 10. */
  lemma TwoSlotScenario(timer: int)
    ensures var w1 := CacheWrite(InitTlb(2 * ENTRY_SIZE), timer, 1, 5, 9);
            var w2 := CacheWrite(w1.table, w1.timer, 1, 6, 10);
            var w3 := CacheWrite(w2.table, w2.timer, 1, 7, 11);
            && w1.status == OK && w2.status == OK && w3.status == FAIL
            && CacheRead(w3.table, w3.timer, 1, 5).status == FAIL
            && CacheRead(w3.table, w3.timer, 1, 6).frame == Some(10)
  {
    var ms := [Mapping(1, 5, 9), Mapping(1, 6, 10)];
    assert InitTlb(2 * ENTRY_SIZE) == EmptyTable(2);
    FillInOrder(2, timer, ms[..1]);
    FillInOrder(2, timer, ms);
    LruEvictsFirstInserted(2, timer, ms, Mapping(1, 7, 11));
    var w1 := CacheWrite(EmptyTable(2), timer, 1, 5, 9);
    assert ms[..1][..0] == [];
    assert w1.status == OK by {
      assert !Cached(EmptyTable(2), 1, 5);
      assert !Full(EmptyTable(2)) by { assert !EmptyTable(2)[0].valid; }
    }
    var t1 := Filled(2, timer, ms[..1]);
    assert !Cached(t1, 1, 6) by {
      assert !Matches(t1[0], 1, 6);
      assert !Matches(t1[1], 1, 6);
    }
    assert !Full(t1) by { assert !t1[1].valid; }
    var w3 := CacheWrite(Filled(2, timer, ms), timer + 2, 1, 7, 11);
    assert Matches(w3.table[1], 1, 6);
    var hit := CacheRead(w3.table, w3.timer, 1, 6);
    var i :| FirstMatch(w3.table, 1, 6, i) && hit.frame == Some(w3.table[i].frameNumber);
    assert i == 1 by { assert !Matches(w3.table[0], 1, 6); }
  }
}
